=== FILE: README.md ===
# Manga downloader core, modelled in Dafny

`manga_downloader.js` is a command-line tool. It builds a catalogue of a manga title's chapters from the title's listing page, and it turns each chapter it downloads into one PDF. This project models the deterministic core of that pipeline as pure Dafny functions. It proves what the code promises about:

- **The catalogue.** `chapterLinks` folds the listing's (name, URL) pairs into an object. `main` keeps only the names containing `Chapter`. `sortChapters` orders the names by the number after `Chapter ` with a stable sort, and names without a number go last.
- **The chapter key.** `/Chapter (\d+(\.\d+)?)/` is matched and `parseFloat` is applied to the captured group. Infinity stands for "no number". The comparator `(a, b) => key(a) - key(b)` is read the way ECMA-262's SortCompare reads it, so NaN counts as +0.
- **Name sanitising.** `name.replace(/[^a-z0-9\s]/gi, '')` gives the folder and file name.
- **Page staging.** Page `i` is fetched, its content type is checked, it is re-encoded to JPEG and written to `${i + 1}.jpg`. All pages are fetched at once under `Promise.all`.
- **Assembly.** `convertToPdf` walks the expected page names in order. It embeds each file that exists and warns about, then skips, each one that does not.
- **The whole chapter.** `downloadManga`: sanitise, stage, assemble.

Modules:

- `Wrappers`: `Option` and `Result`.
- `Seqs`: order-preserving filter and its algebra.
- `Strings`: JavaScript character classes, `includes`, `startsWith`, decimal rendering.
- `ChapterKey`: the key, the comparator and the regular expression.
- `StableSort`: insertion sort, which is stable. It proves the facts that pin down any stable sort.
- `Catalogue`: the object as a sequence of entries with unique names, the fold, the filter, the sort, and the composite.
- `CatalogueExamples`: the worked ordering example.
- `Sanitise`: line 84.
- `Pages`: page names, one page's download, the batch, the workspace, assembly, the pipeline.

A JavaScript object with string keys is modelled as a sequence of `Entry(name, url)` with pairwise distinct names, kept in insertion order. Assigning to an existing key keeps its position and replaces its value. Assigning a new key appends it.

The network, the HTML parsers and the JPEG/PDF libraries are parameters:

- each page is a `Page(url, response)`, where the response is what the GET returned: `Received` when the request resolved, which under axios's default status check needs a 2xx status, and `TransportFailed` otherwise, so a 404 carrying `image/png` is a failed page as at line 33;
- the transcoder is a function `Bytes -> Option<Bytes>`;
- the chapter folder is a map from file name to bytes, handed in with whatever it already held.

Three facts about the program shape the model:

- An existing chapter folder is reused (lines 89-92); `downloadManga` does not fail on it.
- `sortChapters` orders "Chapter 2", "Special", "Chapter 1.5", "Chapter 10" as 1.5, 2, 10, "Special" (`CatalogueExamples.SortChaptersExample`). In `main` the filter has already dropped "Special", because it does not contain `Chapter` (lines 138-143), so the catalogue the user sees never holds it (`Catalogue.ListChaptersSpec`).
- A missing staged file is skipped at assembly (lines 61-75). On the program's own success path this never happens: after every page downloads, every expected file exists (`Pages.NothingSkippedOnSuccess`). Skipping only matters when files disappear between staging and assembly.

## Model

| member | source | states |
|---|---|---|
| Strings.Includes | manga_downloader.js:139 | `key.includes('Chapter')` is true exactly when the word occurs at some position of the name |
| Strings.NatToStringRoundTrip | manga_downloader.js:55 | reading the decimal rendering of a page number back gives that number |
| Strings.NatToStringInjective | manga_downloader.js:55 | two numbers render to the same text only when they are equal |
| ChapterKey.Compare | manga_downloader.js:125 | the comparator's sign, with NaN read as 0, is negative exactly when the first key ranks lower, positive exactly when it ranks higher, and zero exactly for equal keys; Infinity minus Infinity is a tie |
| ChapterKey.BeforeIsStrictTotalOrder | manga_downloader.js:125 | the comparator's order is irreflexive, transitive and total on distinct keys, so it is a consistent comparator |
| ChapterKey.FindMatch | manga_downloader.js:120 | finds the leftmost position where `Chapter ` followed by a digit starts, and finds none only when no such position exists |
| ChapterKey.LeadingDigits | manga_downloader.js:120 | `\d+` is greedy: it takes a digit-only prefix that is followed by a non-digit or by the end |
| ChapterKey.ScanNumeralIsGreedy | manga_downloader.js:120 | the captured group is a prefix of the text after the token. It takes all leading digits, and takes `.` plus digits exactly when a digit follows the point |
| ChapterKey.ExtractChapterNumber | manga_downloader.js:119-122 | the key is Infinity exactly when no position of the name matches the pattern; otherwise it is a non-negative number, namely the decimal value of the leftmost match (`ChapterKey.ExtractAt`) |
| ChapterKey.ExtractAt | manga_downloader.js:119-122 | for any name, if the pattern first matches at position `p` and the text after the token is a numeral followed by text that cannot extend it, the key is that numeral's decimal value |
| ChapterKey.PrefixedMatch | manga_downloader.js:120-121 | a match after a prefix counts: `Vol.1 Chapter 5: X` has key 5 |
| ChapterKey.ScanLexeme | manga_downloader.js:120 | scanning a written numeral followed by a suffix that cannot extend it gives back that numeral |
| ChapterKey.ExtractNumeral | manga_downloader.js:119-122 | the position-0 case of `ExtractAt`: for `Chapter ` + numeral + a suffix that cannot extend the match, the key is the numeral's decimal value |
| ChapterKey.ExtractRenderedNumber | manga_downloader.js:119-122 | `Chapter n` followed by a non-digit other than `.`, or by nothing, has key `n` |
| ChapterKey.TrailingPointIgnored | manga_downloader.js:120-121 | in `Chapter 1.` the point has no digit after it and is not part of the number: key 1 |
| ChapterKey.DecimalRead | manga_downloader.js:120-121 | `Chapter 1.5` has key 1.5 |
| ChapterKey.SecondPointIgnored | manga_downloader.js:120-121 | only one fractional part is read: `Chapter 1.5.3` has key 1.5 |
| ChapterKey.NoMatchIsInfinity | manga_downloader.js:120-121 | matching is case-sensitive and needs exactly one space: `Special`, `chapter 1`, `Chapter  1` and `Chapter10` all get Infinity |
| StableSort.SortByKey | manga_downloader.js:124-125 | the sorted sequence is a permutation of the input and its keys never decrease |
| StableSort.InsertSorted | manga_downloader.js:125 | inserting after every element that does not rank above keeps a sorted sequence sorted |
| StableSort.SortStable | manga_downloader.js:124-125 | elements that share a key, including all the Infinity ones, keep their relative order |
| StableSort.StableSortIsUnique | manga_downloader.js:124-125 | any sorted arrangement that keeps every key's elements in input order equals the computed one, so the result is the one any stable sort gives |
| StableSort.UnnumberedLast | manga_downloader.js:121-125 | the sorted sequence is its numbered elements followed by the unnumbered ones, in input order |
| Catalogue.IndexOfName | manga_downloader.js:109 | the position of a name is its first position, and there is none exactly when the name is absent |
| Catalogue.LookupFindsEntry | manga_downloader.js:127 | with unique names, `chapters[name]` gives `url` exactly when the entry (name, url) is present |
| Catalogue.Put | manga_downloader.js:109 | `links[name] = url`: the name now maps to `url` and every other name keeps its value. Existing names keep their positions, a new name is appended, and names stay unique |
| Catalogue.BuildLinksLastUrlWins | manga_downloader.js:105-110 | each name maps to the URL of its last occurrence in the listing |
| Catalogue.BuildLinksFirstPlaceKept | manga_downloader.js:105-110 | names appear in the order of their first occurrence in the listing |
| Catalogue.BuildLinksSpec | manga_downloader.js:105-110 | the object has unique names, lists exactly the listed names, maps each one to its last URL and orders them by first occurrence |
| Catalogue.FilterChapters | manga_downloader.js:138-143 | an entry is kept exactly when it was present and its name contains `Chapter` |
| Catalogue.FilterChaptersSpec | manga_downloader.js:138-143 | the filtered object keeps unique names. A name maps to its old URL if it contains `Chapter` and is absent otherwise. Filtering distributes over concatenation, so order is preserved, and it is idempotent |
| Catalogue.SortChapters | manga_downloader.js:118-131 | the rebuilt object is a permutation of the filtered one, sorted by chapter key |
| Catalogue.SortChaptersKeepsLinks | manga_downloader.js:126-129 | rebuilding from the sorted keys keeps names unique and every name's URL |
| Catalogue.SortChaptersSpec | manga_downloader.js:118-131 | sorted by key; stable for every key; unnumbered chapters last in their original order; and the only sorted stable arrangement |
| Catalogue.ListChaptersSpec | manga_downloader.js:137-145 | the catalogue has unique names and is sorted by key. It maps each listed name containing `Chapter` to its last URL and holds no other name |
| CatalogueExamples.SortChaptersExample | manga_downloader.js:118-131 | "Chapter 2", "Special", "Chapter 1.5", "Chapter 10" sort to 1.5, 2, 10, then "Special" |
| Sanitise.SanitiseName | manga_downloader.js:84 | every character left is an ASCII letter, an ASCII digit or `\s` whitespace, and the name never grows |
| Sanitise.SanitiseMembers | manga_downloader.js:84 | a character survives exactly when it was in the name and the pattern does not match it |
| Sanitise.SanitiseAppend | manga_downloader.js:84 | with the `g` flag, sanitising works character by character: it distributes over concatenation |
| Sanitise.SanitiseFixpoint | manga_downloader.js:84 | a name is unchanged exactly when all of its characters are kept |
| Sanitise.SanitiseIdempotent | manga_downloader.js:84 | sanitising twice gives the same as once |
| Sanitise.SanitiseLength | manga_downloader.js:84 | the result's length is the number of kept characters |
| Sanitise.DeletedCharInvisible | manga_downloader.js:84 | inserting a deleted character anywhere does not change the result |
| Sanitise.SanitiseKeepsWord | manga_downloader.js:84 | a plain word in the name survives, so the result is at least as long as the word |
| Sanitise.ChapterNamesNeverEmpty | manga_downloader.js:84-89 | every catalogue name keeps `Chapter`, so its folder is never the output root itself |
| Sanitise.SanitiseExample | manga_downloader.js:84 | `Chapter 10: The Fall!` becomes `Chapter 10 The Fall` |
| Sanitise.SanitiseCollides | manga_downloader.js:84-89 | two distinct chapter names can share one folder and one PDF name |
| Pages.PageName | manga_downloader.js:55 | the page file name is decimal digits reading `i + 1` with no leading zero, then `.jpg` |
| Pages.PageNameExamples | manga_downloader.js:55 | page 0 is `1.jpg` and page 9 is `10.jpg` |
| Pages.ExpectedNames | manga_downloader.js:96 | one expected name per page, the name of page `i` at index `i` |
| Pages.ExpectedNamesDistinct | manga_downloader.js:96 | no two expected names coincide |
| Pages.IsImageExamples | manga_downloader.js:41 | `image/png`, `image/jpeg` and `imagery` are accepted; `text/html`, `Image/png`, `imag` and the empty type are rejected |
| Pages.DownloadImage | manga_downloader.js:31-51 | a page is written exactly when the request succeeded, a content type is present and starts with `image`, and the body re-encodes; it is written under the given name with the re-encoded bytes, and a wrong content type fails with that type |
| Pages.DownloadAllImages | manga_downloader.js:54-56 | the batch succeeds exactly when every page succeeds. It then yields page `i`'s write at index `i`. A failed batch reports the error of some failing page |
| Pages.DownloadAllImagesNames | manga_downloader.js:55 | a successful batch writes page `i` to `${i + 1}.jpg` |
| Pages.OneInvalidPageFailsAll | manga_downloader.js:41-42 | one page with a non-image content type fails the whole batch |
| Pages.Stage | manga_downloader.js:47 | the folder afterwards has the old files plus every written name |
| Pages.StageContents | manga_downloader.js:47 | with no two disagreeing writes to one name, each written name holds its bytes and every other file is untouched |
| Pages.CompletionOrderIrrelevant | manga_downloader.js:47-55 | any completion order of the same consistent writes leaves the same folder |
| Pages.BatchConsistent | manga_downloader.js:55 | a successful batch's writes go to pairwise distinct names |
| Pages.StagedPage | manga_downloader.js:47-55 | after a successful batch, page `i`'s name holds page `i`'s image, whatever the folder held before |
| Pages.Missing | manga_downloader.js:62-73 | a name is skipped exactly when it is listed and its file does not exist |
| Pages.EmbedAppend | manga_downloader.js:61-75 | assembly works name by name: it distributes over concatenation of the name list |
| Pages.EmbedAllPresent | manga_downloader.js:61-71 | when every listed file exists, the document has one page per name, in list order, holding that file's bytes |
| Pages.EmbedOrSkip | manga_downloader.js:61-75 | every listed name is either embedded or skipped: the page count plus the skipped count is the list length |
| Pages.MissingPageSkipped | manga_downloader.js:72-74 | a missing file drops out and the pages before and after it stay in order |
| Pages.FourthOfFiveMissing | manga_downloader.js:61-75 | five expected pages with the fourth file absent give a four-page document of the other four, in order |
| Pages.ConvertToPdf | manga_downloader.js:58-78 | the loop builds exactly the assembled document, named `name.pdf`, and its warnings name exactly the missing files, in order |
| Pages.DownloadManga | manga_downloader.js:83-98 | a document is produced exactly when the batch download succeeds |
| Pages.DownloadMangaSucceedsIff | manga_downloader.js:95 | a chapter is produced exactly when every one of its pages downloads |
| Pages.DownloadMangaFailure | manga_downloader.js:95 | a failed chapter reports the error of one of its pages |
| Pages.DownloadMangaPages | manga_downloader.js:83-97 | a produced chapter is named after the sanitised name and has one page per page URL. Page `i` holds page `i`'s image, whatever the folder held before |
| Pages.NothingSkippedOnSuccess | manga_downloader.js:95-97 | after a successful batch the assembler finds every expected file |
| Pages.AnyCompletionOrder | manga_downloader.js:55-97 | whatever order the pages finish in, the document is the same |

## Left out

- Network access and HTML parsing (`pageLinks`, the request in `chapterLinks`, lines 17-29 and 100-104): each page arrives as a URL with the response it got, and the listing as a sequence of (name, URL) pairs.
- `.trim()` of the chapter text (line 107): the pairs carry names as already trimmed.
- Image decoding and PDF layout (`sharp`, `pdf-lib`, page sizes, lines 46 and 59-77): the transcoder is a parameter, and a document is its name plus its sequence of embedded images.
- The filesystem effects around assembly are not modelled: `process.chdir`, creating the folder, deleting it after the PDF is saved (line 79), and the console messages. Writing a file is assumed to succeed.
- Concurrency: downloads are modelled by their results and by every completion order. Pages that still finish after `Promise.all` has rejected are not modelled.
- Pages.DownloadAllImages: which failing page's error `Promise.all` reports depends on timing; the model reports the lowest-indexed one and promises only that it is one of the failing pages' errors.
- The interactive menu in `main` (lines 134-192) is left out: it is user interface, and it only calls `downloadManga` for chosen entries.
- ChapterKey.ExtractChapterNumber: keys are exact decimals. The rounding of `parseFloat` to the nearest double is left out, so two numerals that round to the same double, such as very long fractions, compare as distinct here. A numeral of about 309 or more digits parses to Infinity in JavaScript and then ties with the unnumbered names (Infinity minus Infinity is NaN, read as +0), while the model ranks it before them.
- Strings are sequences of Unicode scalar values, while JavaScript strings are UTF-16 code units and may hold lone surrogates. No modelled result depends on the difference: the tokens are ASCII, and sanitising deletes every character outside ASCII letters, digits and whitespace in either representation.
- Strings.NatToString: renders every integer in plain decimal. JavaScript switches to exponent notation from 10^21, far beyond any page count.
- Catalogue.BuildLinksSpec: the object `chapterLinks` returns lists array-index names (canonical decimal integers from 0 to 2^32 - 2, such as "5") first, in ascending numeric order, and then the other names in insertion order; names such as "-5" or "4294967295" keep insertion order. Assigning a string to `links["__proto__"]` creates no key at all, because the inherited setter ignores it. The model keeps listing order for every name and treats `__proto__` as an ordinary name. The `Chapter` filter removes every array-index name and `__proto__`, and keeps the other names in their relative order, so `ListChapters` and everything after it is unaffected.
- Catalogue.BuildLinksFirstPlaceKept: names appear in order of first occurrence only among names that are not array indices. For the listing ("Chapter 1", u1), ("5", u2) JavaScript lists ["5", "Chapter 1"] while the model lists ["Chapter 1", "5"]. `ListChapters` is unaffected: the `Chapter` filter removes every array-index name and keeps the rest in relative order, and on those the two orders agree.
- Catalogue.Put: a new name is appended. In JavaScript, `links["5"] = u` on an object holding "Chapter 1" puts the array-index name "5" before it, and assigning a string to `links["__proto__"]` adds no key at all. The `Chapter` filter removes both kinds of name before `ListChapters` uses the catalogue, so nothing after it is affected.
- Catalogue.BuildLinksLastUrlWins: every name, `__proto__` included, reads back its last URL. In JavaScript `links["__proto__"]` reads `Object.prototype` instead, because the assignment went to the inherited setter. The `Chapter` filter removes that name before `ListChapters` uses the catalogue, so nothing after it is affected.
- A sanitised name that comes out empty would make the output root the workspace. No catalogue name can produce one (`Sanitise.ChapterNamesNeverEmpty`), so that case is not modelled further.
- What happens to the folder after a failed download (it is left behind with whatever was written) is not modelled; a failure produces no document.

=== FILE: catalogue.dfy ===
/** The chapter catalogue: the name-to-URL object `chapterLinks` builds, the
    `"Chapter"` filter in `main`, and `sortChapters`. A JavaScript object is
    modelled as its entries in key order, names unique. */
module Catalogue {
  import opened Wrappers
  import opened Strings
  import opened Seqs
  import opened ChapterKey
  import opened StableSort

  /** One chapter: its display name and the URL of its reader page. */
  datatype Entry = Entry(name: string, url: string)

  /** An object from chapter names to URLs, in key order. */
  type Links = seq<Entry>

  predicate UniqueNames(ls: Links) {
    forall i, j :: 0 <= i < j < |ls| ==> ls[i].name != ls[j].name
  }

  predicate HasName(ls: Links, name: string) {
    exists i :: 0 <= i < |ls| && ls[i].name == name
  }

  /** The position of the entry named `name`, if any. */
  function IndexOfName(ls: Links, name: string): (r: Option<nat>)
    ensures r.Some? ==> r.value < |ls| && ls[r.value].name == name
    ensures r.Some? ==> forall i :: 0 <= i < r.value ==> ls[i].name != name
    ensures r.None? <==> !HasName(ls, name)
  {
    if ls == [] then None
    else if ls[0].name == name then Some(0)
    else match IndexOfName(ls[1..], name)
      case None => None
      case Some(i) => Some(i + 1)
  }

  /** `links[name]`: the URL stored under `name`, or undefined. */
  function Lookup(ls: Links, name: string): Option<string> {
    match IndexOfName(ls, name)
    case None => None
    case Some(i) => Some(ls[i].url)
  }

  /** In an object with unique names, looking a name up finds exactly the entry carrying it. */
  lemma LookupFindsEntry(ls: Links, name: string, url: string)
    requires UniqueNames(ls)
    ensures Lookup(ls, name) == Some(url) <==> Entry(name, url) in ls
  {
    if Entry(name, url) in ls {
      var i :| 0 <= i < |ls| && ls[i] == Entry(name, url);
      var j := IndexOfName(ls, name).value;
      assert i == j;
    }
  }

  /** Two objects with unique names and the same entries answer every lookup alike. */
  lemma SameEntriesSameLookups(a: Links, b: Links, name: string)
    requires UniqueNames(a) && UniqueNames(b)
    requires forall e :: e in a <==> e in b
    ensures Lookup(a, name) == Lookup(b, name)
  {
    match Lookup(a, name)
    case Some(u) =>
      LookupFindsEntry(a, name, u);
      LookupFindsEntry(b, name, u);
    case None =>
      if Lookup(b, name).Some? {
        var u := Lookup(b, name).value;
        LookupFindsEntry(a, name, u);
        LookupFindsEntry(b, name, u);
      }
  }

  // ---------------------------------------------------------------------------
  // chapterLinks: links[chapterName] = chapterUrl for each listed chapter.

  /** `links[name] = url`: a new name is appended, a known name keeps its place
      and takes the new URL. */
  function Put(ls: Links, name: string, url: string): (r: Links)
    ensures |r| == if HasName(ls, name) then |ls| else |ls| + 1
    ensures forall i :: 0 <= i < |ls| ==> r[i].name == ls[i].name
    ensures !HasName(ls, name) ==> r[|ls|].name == name
    ensures UniqueNames(ls) ==> UniqueNames(r)
    ensures Lookup(r, name) == Some(url)
    ensures forall n :: n != name ==> Lookup(r, n) == Lookup(ls, n)
  {
    match IndexOfName(ls, name)
    case Some(i) =>
      var r := ls[i := Entry(name, url)];
      assert forall n :: IndexOfName(r, n) == IndexOfName(ls, n) by {
        forall n ensures IndexOfName(r, n) == IndexOfName(ls, n) {
          IndexOfNameSameNames(r, ls, n);
        }
      }
      r
    case None =>
      var r := ls + [Entry(name, url)];
      assert forall n :: n != name ==> IndexOfName(r, n) == IndexOfName(ls, n) by {
        forall n | n != name ensures IndexOfName(r, n) == IndexOfName(ls, n) {
          IndexOfNameAppend(ls, Entry(name, url), n);
        }
      }
      IndexOfNameAppend(ls, Entry(name, url), name);
      r
  }

  lemma {:induction false} IndexOfNameSameNames(a: Links, b: Links, n: string)
    requires |a| == |b|
    requires forall i :: 0 <= i < |a| ==> a[i].name == b[i].name
    ensures IndexOfName(a, n) == IndexOfName(b, n)
  {
    if a != [] {
      IndexOfNameSameNames(a[1..], b[1..], n);
    }
  }

  lemma {:induction false} IndexOfNameAppend(ls: Links, e: Entry, n: string)
    ensures IndexOfName(ls + [e], n)
            == if HasName(ls, n) then IndexOfName(ls, n)
               else if e.name == n then Some(|ls|) else None
  {
    if ls != [] {
      assert (ls + [e])[1..] == ls[1..] + [e];
      IndexOfNameAppend(ls[1..], e, n);
      if ls[0].name != n {
        assert HasName(ls, n) <==> HasName(ls[1..], n) by {
          if HasName(ls, n) {
            var i :| 0 <= i < |ls| && ls[i].name == n;
            assert ls[1..][i - 1].name == n;
          }
          if HasName(ls[1..], n) {
            var i :| 0 <= i < |ls[1..]| && ls[1..][i].name == n;
            assert ls[i + 1].name == n;
          }
        }
      }
    }
  }

  /** The object `chapterLinks` returns for the listed (name, URL) pairs, in listing order. */
  function BuildLinks(pairs: seq<Entry>): Links
  {
    if pairs == [] then []
    else
      var last := pairs[|pairs| - 1];
      Put(BuildLinks(pairs[..|pairs| - 1]), last.name, last.url)
  }

  /** The URL of the last pair carrying `name`, read from the end of the listing. */
  function LastUrl(pairs: seq<Entry>, name: string): Option<string>
  {
    if pairs == [] then None
    else if pairs[|pairs| - 1].name == name then Some(pairs[|pairs| - 1].url)
    else LastUrl(pairs[..|pairs| - 1], name)
  }

  /** The index of the first pair carrying `name`; `|pairs|` when there is none. */
  function FirstIndex(pairs: seq<Entry>, name: string): (i: nat)
    ensures i <= |pairs|
    ensures i < |pairs| <==> HasName(pairs, name)
    ensures i < |pairs| ==> pairs[i].name == name
  {
    match IndexOfName(pairs, name)
    case None => |pairs|
    case Some(i) => i
  }

  lemma {:induction false} BuildLinksUnique(pairs: seq<Entry>)
    ensures UniqueNames(BuildLinks(pairs))
  {
    if pairs != [] {
      BuildLinksUnique(pairs[..|pairs| - 1]);
    }
  }

  /** Every name holds the URL of its last occurrence in the listing. */
  lemma {:induction false} BuildLinksLastUrlWins(pairs: seq<Entry>, n: string)
    ensures Lookup(BuildLinks(pairs), n) == LastUrl(pairs, n)
  {
    if pairs != [] {
      BuildLinksLastUrlWins(pairs[..|pairs| - 1], n);
    }
  }

  /** Every name of the object occurs in the listing. */
  lemma {:induction false} BuildLinksNamesListed(pairs: seq<Entry>, i: nat)
    requires i < |BuildLinks(pairs)|
    ensures HasName(pairs, BuildLinks(pairs)[i].name)
  {
    var init, last := pairs[..|pairs| - 1], pairs[|pairs| - 1];
    var r0 := BuildLinks(init);
    if i < |r0| {
      BuildLinksNamesListed(init, i);
      var k :| 0 <= k < |init| && init[k].name == r0[i].name;
      assert pairs[k] == init[k];
    } else {
      assert BuildLinks(pairs)[i].name == last.name;
    }
  }

  /** Names are ordered by their first occurrence in the listing. */
  lemma {:induction false} BuildLinksFirstPlaceKept(pairs: seq<Entry>, i: nat, j: nat)
    requires i < j < |BuildLinks(pairs)|
    ensures FirstIndex(pairs, BuildLinks(pairs)[i].name) < FirstIndex(pairs, BuildLinks(pairs)[j].name)
  {
    var init, last := pairs[..|pairs| - 1], pairs[|pairs| - 1];
    assert pairs == init + [last];
    var r0 := BuildLinks(init);
    var r := BuildLinks(pairs);
    var a, b := r[i].name, r[j].name;
    assert a == r0[i].name;
    assert FirstIndex(pairs, a) == FirstIndex(init, a) by {
      BuildLinksNamesListed(init, i);
      IndexOfNameAppend(init, last, a);
    }
    if j < |r0| {
      assert FirstIndex(pairs, b) == FirstIndex(init, b) by {
        BuildLinksNamesListed(init, j);
        IndexOfNameAppend(init, last, b);
      }
      BuildLinksFirstPlaceKept(init, i, j);
    } else {
      assert r == Put(r0, last.name, last.url);
      assert !HasName(r0, last.name) && j == |r0|;
      assert b == last.name;
      assert !HasName(init, b) by {
        LastUrlFindsName(init, last.name);
        BuildLinksLastUrlWins(init, last.name);
      }
      assert FirstIndex(pairs, b) == |init| by {
        IndexOfNameAppend(init, last, b);
      }
    }
  }

  /** `chapterLinks` produces an object with unique names in which every name
      holds the URL of its LAST occurrence in the listing, every listed name
      appears, and names are ordered by their FIRST occurrence. */
  lemma BuildLinksSpec(pairs: seq<Entry>)
    ensures UniqueNames(BuildLinks(pairs))
    ensures forall n :: Lookup(BuildLinks(pairs), n) == LastUrl(pairs, n)
    ensures forall n :: HasName(BuildLinks(pairs), n) <==> HasName(pairs, n)
    ensures forall i, j :: 0 <= i < j < |BuildLinks(pairs)| ==>
              FirstIndex(pairs, BuildLinks(pairs)[i].name) < FirstIndex(pairs, BuildLinks(pairs)[j].name)
  {
    var r := BuildLinks(pairs);
    BuildLinksUnique(pairs);
    forall n ensures Lookup(r, n) == LastUrl(pairs, n) && (HasName(r, n) <==> HasName(pairs, n)) {
      BuildLinksLastUrlWins(pairs, n);
      LastUrlFindsName(pairs, n);
    }
    forall i, j | 0 <= i < j < |r|
      ensures FirstIndex(pairs, r[i].name) < FirstIndex(pairs, r[j].name)
    {
      BuildLinksFirstPlaceKept(pairs, i, j);
    }
  }

  lemma {:induction false} LastUrlFindsName(pairs: seq<Entry>, name: string)
    ensures LastUrl(pairs, name).Some? <==> HasName(pairs, name)
  {
    if pairs != [] {
      var init := pairs[..|pairs| - 1];
      LastUrlFindsName(init, name);
      if HasName(pairs, name) && pairs[|pairs| - 1].name != name {
        var i :| 0 <= i < |pairs| && pairs[i].name == name;
        assert init[i].name == name;
      }
      if HasName(init, name) {
        var i :| 0 <= i < |init| && init[i].name == name;
        assert pairs[i].name == name;
      }
    }
  }

  // ---------------------------------------------------------------------------
  // main: Object.keys(chapters).filter(key => key.includes('Chapter')).

  const ChapterWord: string := "Chapter"

  predicate IsChapterEntry(e: Entry) {
    Contains(e.name, ChapterWord)
  }

  /** The object rebuilt from the names that contain `Chapter`, in their order. */
  function FilterChapters(ls: Links): (r: Links)
    ensures forall e :: e in r <==> e in ls && Contains(e.name, ChapterWord)
    ensures forall i :: 0 <= i < |r| ==> Contains(r[i].name, ChapterWord)
    ensures |r| <= |ls|
  {
    Filter(ls, IsChapterEntry)
  }

  lemma {:induction false} FilterChaptersUnique(ls: Links)
    requires UniqueNames(ls)
    ensures UniqueNames(FilterChapters(ls))
  {
    if ls != [] {
      FilterChaptersUnique(ls[1..]);
      var rest := FilterChapters(ls[1..]);
      assert forall e :: e in rest ==> e.name != ls[0].name by {
        forall e | e in rest ensures e.name != ls[0].name {
          var k :| 0 <= k < |ls[1..]| && ls[1..][k] == e;
          assert ls[k + 1] == e;
        }
      }
      if IsChapterEntry(ls[0]) {
        assert FilterChapters(ls) == [ls[0]] + rest;
      } else {
        assert FilterChapters(ls) == rest;
      }
    }
  }

  /** The filter keeps exactly the names containing `Chapter`, each with its URL,
      keeps their relative order, and is idempotent. */
  lemma FilterChaptersSpec(ls: Links, a: Links, b: Links)
    requires UniqueNames(ls)
    ensures UniqueNames(FilterChapters(ls))
    ensures forall n :: Lookup(FilterChapters(ls), n)
                        == if Contains(n, ChapterWord) then Lookup(ls, n) else None
    ensures FilterChapters(a + b) == FilterChapters(a) + FilterChapters(b)
    ensures FilterChapters(FilterChapters(ls)) == FilterChapters(ls)
  {
    var r := FilterChapters(ls);
    FilterChaptersUnique(ls);
    forall n ensures Lookup(r, n) == if Contains(n, ChapterWord) then Lookup(ls, n) else None {
      match Lookup(ls, n)
      case Some(u) =>
        LookupFindsEntry(ls, n, u);
        LookupFindsEntry(r, n, u);
        if !Contains(n, ChapterWord) && Lookup(r, n).Some? {
          LookupFindsEntry(r, n, Lookup(r, n).value);
        }
      case None =>
        if Lookup(r, n).Some? {
          LookupFindsEntry(r, n, Lookup(r, n).value);
          LookupFindsEntry(ls, n, Lookup(r, n).value);
        }
    }
    FilterAppend(a, b, IsChapterEntry);
    FilterIdempotent(ls, IsChapterEntry);
  }

  // ---------------------------------------------------------------------------
  // sortChapters: Object.keys(chapters).sort((a, b) => key(a) - key(b)), stable.

  /** The sort key of an entry: `extractChapterNumber(name)`. */
  function KeyOf(e: Entry): Key {
    ExtractChapterNumber(e.name)
  }

  /** `sortChapters`: the entries stably sorted by chapter key. Each entry moves
      whole, so every name keeps its URL. */
  function SortChapters(ls: Links): (r: Links)
    ensures multiset(r) == multiset(ls)
    ensures Sorted(r, KeyOf)
  {
    SortByKey(ls, KeyOf)
  }

  lemma {:induction false} InsertKeepsUnique(x: Entry, t: Links, key: Entry -> Key)
    requires UniqueNames(t)
    requires forall e :: e in t ==> e.name != x.name
    ensures UniqueNames(Insert(x, t, key))
  {
    if t != [] && Compare(key(x), key(t[0])) >= 0 {
      var tail := t[1..];
      var rest := Insert(x, tail, key);
      assert UniqueNames(tail) by {
        assert forall i :: 0 <= i < |tail| ==> tail[i] == t[i + 1];
      }
      InsertKeepsUnique(x, tail, key);
      assert forall j :: 0 <= j < |rest| ==> rest[j].name != t[0].name by {
        InsertMembers(x, tail, key);
        forall j | 0 <= j < |rest|
          ensures rest[j].name != t[0].name
        {
          assert rest[j] in rest;
          if rest[j] != x {
            var k :| 0 <= k < |tail| && tail[k] == rest[j];
            assert t[k + 1] == rest[j];
          }
        }
      }
      assert Insert(x, t, key) == [t[0]] + rest;
    }
  }

  /** Sorting moves whole entries: names stay unique and every name keeps its URL. */
  lemma {:induction false} SortChaptersKeepsLinks(ls: Links)
    requires UniqueNames(ls)
    ensures UniqueNames(SortChapters(ls))
    ensures forall n :: Lookup(SortChapters(ls), n) == Lookup(ls, n)
  {
    if ls != [] {
      var init, last := ls[..|ls| - 1], ls[|ls| - 1];
      assert ls == init + [last];
      SortChaptersKeepsLinks(init);
      var sortedInit := SortChapters(init);
      assert forall e :: e in sortedInit <==> e in init by {
        assert forall e :: e in sortedInit <==> e in multiset(sortedInit);
      }
      forall e | e in sortedInit ensures e.name != last.name {
        var k :| 0 <= k < |init| && init[k] == e;
        assert ls[k] == e;
      }
      InsertKeepsUnique(last, sortedInit, KeyOf);
    }
    var r := SortChapters(ls);
    assert forall e :: e in r <==> e in ls by {
      assert forall e :: e in r <==> e in multiset(r);
    }
    forall n ensures Lookup(r, n) == Lookup(ls, n) {
      SameEntriesSameLookups(r, ls, n);
    }
  }

  /** `sortChapters` returns the entries in non-decreasing key order; entries
      with equal keys, in particular all unnumbered ones, keep their input
      order, and the unnumbered ones come last. No other arrangement has these
      properties, so any stable sort returns exactly this one. */
  lemma SortChaptersSpec(ls: Links, t: Links)
    ensures Sorted(SortChapters(ls), KeyOf)
    ensures forall k :: WithKey(SortChapters(ls), KeyOf, k) == WithKey(ls, KeyOf, k)
    ensures SortChapters(ls) == Numbered(SortChapters(ls), KeyOf) + WithKey(ls, KeyOf, Inf)
    ensures Sorted(t, KeyOf) && (forall k :: WithKey(t, KeyOf, k) == WithKey(ls, KeyOf, k))
            ==> t == SortChapters(ls)
  {
    forall k ensures WithKey(SortChapters(ls), KeyOf, k) == WithKey(ls, KeyOf, k) {
      SortStable(ls, KeyOf, k);
    }
    UnnumberedLast(ls, KeyOf);
    if Sorted(t, KeyOf) && (forall k :: WithKey(t, KeyOf, k) == WithKey(ls, KeyOf, k)) {
      StableSortIsUnique(ls, t, KeyOf);
    }
  }

  // ---------------------------------------------------------------------------
  // The catalogue main builds before presenting its menu.

  /** chapterLinks, then the `Chapter` filter, then sortChapters. */
  function ListChapters(pairs: seq<Entry>): Links {
    SortChapters(FilterChapters(BuildLinks(pairs)))
  }

  /** The catalogue holds exactly the listed names that contain `Chapter`, once
      each, with the URL of their last listing, ordered by chapter key. */
  lemma ListChaptersSpec(pairs: seq<Entry>)
    ensures UniqueNames(ListChapters(pairs))
    ensures Sorted(ListChapters(pairs), KeyOf)
    ensures forall n :: Lookup(ListChapters(pairs), n)
                        == if Contains(n, ChapterWord) then LastUrl(pairs, n) else None
    ensures forall i :: 0 <= i < |ListChapters(pairs)| ==> Contains(ListChapters(pairs)[i].name, ChapterWord)
  {
    var links := BuildLinks(pairs);
    var filtered := FilterChapters(links);
    BuildLinksSpec(pairs);
    FilterChaptersSpec(links, [], []);
    SortChaptersKeepsLinks(filtered);
    var r := ListChapters(pairs);
    assert forall e :: e in r <==> e in filtered by {
      assert forall e :: e in r <==> e in multiset(r);
    }
    forall i | 0 <= i < |r| ensures Contains(r[i].name, ChapterWord) {
      assert r[i] in filtered;
    }
  }
}

=== FILE: catalogue_examples.dfy ===
/** A worked instance of the catalogue's ordering rules. */
module CatalogueExamples {
  import opened Strings
  import opened ChapterKey
  import opened StableSort
  import opened Catalogue

  lemma KeyOfChapter2()
    ensures ExtractChapterNumber("Chapter 2") == Num(2.0)
  {
    ExtractRenderedNumber(2, "");
    assert Token + NatToString(2) + "" == "Chapter 2";
  }

  lemma KeyOfChapter10()
    ensures ExtractChapterNumber("Chapter 10") == Num(10.0)
  {
    ExtractRenderedNumber(10, "");
    assert NatToString(10) == NatToString(1) + ['0'];
    assert Token + NatToString(10) + "" == "Chapter 10";
  }

  /** Sorting four elements whose keys rank third, fourth, first and second. */
  lemma SortFour<T>(a: T, b: T, c: T, d: T, key: T -> Key)
    requires Before(key(c), key(a)) && Before(key(a), key(d)) && Before(key(d), key(b))
    requires Before(key(a), key(b))
    ensures SortByKey([a, b, c, d], key) == [c, a, d, b]
  {
    SortThree(a, b, c, key);
    InsertFourth(a, b, c, d, key);
    var s4 := [a, b, c, d];
    assert s4[..3] == [a, b, c];
  }

  lemma SortThree<T>(a: T, b: T, c: T, key: T -> Key)
    requires Before(key(c), key(a)) && Before(key(a), key(b))
    ensures SortByKey([a, b, c], key) == [c, a, b]
  {
    var s1, s2, s3 := [a], [a, b], [a, b, c];
    assert SortByKey(s1, key) == [a] by {
      assert s1[..0] == [];
    }
    assert SortByKey(s2, key) == [a, b] by {
      assert s2[..1] == s1;
      assert Insert(b, [a], key) == [a] + Insert(b, [], key);
    }
    assert s3[..2] == s2;
  }

  lemma InsertFourth<T>(a: T, b: T, c: T, d: T, key: T -> Key)
    requires Before(key(c), key(a)) && Before(key(a), key(d)) && Before(key(d), key(b))
    ensures Insert(d, [c, a, b], key) == [c, a, d, b]
  {
    assert Insert(d, [b], key) == [d, b];
    assert Insert(d, [a, b], key) == [a, d, b] by {
      assert [a, b][1..] == [b];
    }
    assert [c, a, b][1..] == [a, b];
  }

  /** Numbered chapters in numeric order (so 10 after 2), the unnumbered name last. */
  lemma SortChaptersExample(u1: string, u2: string, u3: string, u4: string)
    ensures SortChapters([Entry("Chapter 2", u1), Entry("Special", u2),
                          Entry("Chapter 1.5", u3), Entry("Chapter 10", u4)])
            == [Entry("Chapter 1.5", u3), Entry("Chapter 2", u1),
                Entry("Chapter 10", u4), Entry("Special", u2)]
  {
    KeyOfChapter2();
    KeyOfChapter10();
    DecimalRead();
    NoMatchIsInfinity();
    SortFour(Entry("Chapter 2", u1), Entry("Special", u2),
             Entry("Chapter 1.5", u3), Entry("Chapter 10", u4), KeyOf);
  }
}

=== FILE: chapter_key.dfy ===
/** The sort key of a chapter: the number after "Chapter " in its name, or
    Infinity, and the comparator `(a, b) => key(a) - key(b)` the sort uses. */
module ChapterKey {
  import opened Wrappers
  import opened Strings

  /** A chapter number as exact decimal value, or Infinity when the name has none. */
  datatype Key = Num(value: real) | Inf

  /** The IEEE values that a difference of two keys can take. */
  datatype Difference = Finite(r: real) | PosInfinity | NegInfinity | NaN

  /** `a - b` on keys: Infinity minus Infinity is NaN. */
  function Subtract(a: Key, b: Key): Difference
  {
    match (a, b)
    case (Num(x), Num(y)) => Finite(x - y)
    case (Num(_), Inf) => NegInfinity
    case (Inf, Num(_)) => PosInfinity
    case (Inf, Inf) => NaN
  }

  /** The sign the sort reads from a comparator result; a NaN result counts as +0
      (SortCompare, section 22.1.3.27.1 of ECMA-262, 10th edition). */
  function SortCompare(d: Difference): int
  {
    match d
    case Finite(r) => if r < 0.0 then -1 else if r == 0.0 then 0 else 1
    case PosInfinity => 1
    case NegInfinity => -1
    case NaN => 0
  }

  /** The intended order of keys: numbers by value, every number before Infinity. */
  predicate Before(a: Key, b: Key) {
    match (a, b)
    case (Num(x), Num(y)) => x < y
    case (Num(_), Inf) => true
    case (Inf, _) => false
  }

  predicate AtMost(a: Key, b: Key) {
    !Before(b, a)
  }

  /** The source's comparator, `extractChapterNumber(a) - extractChapterNumber(b)`
      as the sort reads it. It orders keys exactly as `Before` does and reports a
      tie exactly for equal keys, so it is a consistent comparator. */
  function Compare(a: Key, b: Key): (c: int)
    ensures c < 0 <==> Before(a, b)
    ensures c > 0 <==> Before(b, a)
    ensures c == 0 <==> a == b
  {
    SortCompare(Subtract(a, b))
  }

  /** `Before` is a strict total order on keys. */
  lemma BeforeIsStrictTotalOrder(a: Key, b: Key, c: Key)
    ensures !Before(a, a)
    ensures Before(a, b) && Before(b, c) ==> Before(a, c)
    ensures a != b ==> Before(a, b) || Before(b, a)
  {
  }

  // ---------------------------------------------------------------------------
  // The pattern /Chapter (\d+(\.\d+)?)/ and parseFloat of its first group.

  const Token: string := "Chapter "

  /** The pattern can start matching at `p`: the token, then at least one digit. */
  predicate MatchesAt(s: string, p: nat) {
    p + |Token| < |s| && s[p..p + |Token|] == Token && IsDigit(s[p + |Token|])
  }

  /** The leftmost position at or after `from` where the pattern matches. */
  function FindMatch(s: string, from: nat): (r: Option<nat>)
    ensures r.Some? ==> from <= r.value < |s| && MatchesAt(s, r.value)
    ensures r.Some? ==> forall q :: from <= q < r.value ==> !MatchesAt(s, q)
    ensures r.None? ==> forall q :: from <= q < |s| ==> !MatchesAt(s, q)
    decreases |s| - from
  {
    if from >= |s| then None
    else if MatchesAt(s, from) then Some(from)
    else FindMatch(s, from + 1)
  }

  /** Greedy `\d*` at the start of `s`. */
  function LeadingDigits(s: string): (d: string)
    ensures |d| <= |s| && d == s[..|d|]
    ensures AllDigits(d)
    ensures |d| < |s| ==> !IsDigit(s[|d|])
  {
    if s != [] && IsDigit(s[0]) then [s[0]] + LeadingDigits(s[1..]) else []
  }

  /** The parts of a `\d+(\.\d+)?` match: whole digits and (possibly empty) fraction digits. */
  datatype Numeral = Numeral(whole: string, fraction: string)

  /** The text the numeral occupies. */
  function Lexeme(n: Numeral): string {
    if n.fraction == [] then n.whole else n.whole + "." + n.fraction
  }

  /** Greedy `\d+(\.\d+)?` at the start of `s`: as many whole digits as there are,
      then a point and fraction digits only when a digit follows the point. */
  function ScanNumeral(s: string): (n: Numeral)
    requires s != [] && IsDigit(s[0])
    ensures n.whole != [] && AllDigits(n.whole) && AllDigits(n.fraction)
  {
    var whole := LeadingDigits(s);
    var rest := s[|whole|..];
    if |rest| >= 2 && rest[0] == '.' && IsDigit(rest[1]) then
      Numeral(whole, LeadingDigits(rest[1..]))
    else
      Numeral(whole, [])
  }

  /** The scanned numeral is a prefix of `s` and cannot be extended: no digit
      follows the whole part, a point is taken only with a digit after it, and
      no digit follows the fraction. */
  lemma ScanNumeralIsGreedy(s: string)
    requires s != [] && IsDigit(s[0])
    ensures StartsWith(s, Lexeme(ScanNumeral(s)))
    ensures var n := ScanNumeral(s);
            |n.whole| < |s| ==> !IsDigit(s[|n.whole|])
    ensures var n := ScanNumeral(s);
            n.fraction == [] ==> !(|n.whole| + 1 < |s| && s[|n.whole|] == '.' && IsDigit(s[|n.whole| + 1]))
    ensures var n := ScanNumeral(s);
            n.fraction != [] && |Lexeme(n)| < |s| ==> !IsDigit(s[|Lexeme(n)|])
  {
    var whole := LeadingDigits(s);
    var rest := s[|whole|..];
    assert s == whole + rest;
    if |rest| >= 2 && rest[0] == '.' && IsDigit(rest[1]) {
      var fraction := LeadingDigits(rest[1..]);
      assert rest[..1 + |fraction|] == "." + fraction;
      assert s[..|whole| + 1 + |fraction|] == whole + "." + fraction;
    }
  }

  /** `parseFloat` of the lexeme, as an exact decimal. */
  function Value(n: Numeral): real
    requires AllDigits(n.whole) && AllDigits(n.fraction)
  {
    (DigitsValue(n.whole) as real) + (DigitsValue(n.fraction) as real) / (Pow10(|n.fraction|) as real)
  }

  /** A numeral without fraction digits is worth its whole digits. */
  lemma ValueOfWhole(n: Numeral)
    requires AllDigits(n.whole) && n.fraction == []
    ensures Value(n) == DigitsValue(n.whole) as real
  {
    var f: real := DigitsValue(n.fraction) as real;
    var d: real := Pow10(|n.fraction|) as real;
    assert f == 0.0 && d == 1.0;
    assert f / d == 0.0;
  }

  lemma ValueNonNegative(n: Numeral)
    requires AllDigits(n.whole) && AllDigits(n.fraction)
    ensures Value(n) >= 0.0
  {
    var f: real := DigitsValue(n.fraction) as real;
    var d: real := Pow10(|n.fraction|) as real;
    assert f / d >= 0.0 by {
      assert f >= 0.0 && d > 0.0;
    }
  }

  /** `extractChapterNumber`: the value of the leftmost match, or Infinity when
      the pattern matches nowhere in the name. */
  function ExtractChapterNumber(name: string): (k: Key)
    ensures k == Inf <==> forall p :: 0 <= p < |name| ==> !MatchesAt(name, p)
    ensures k.Num? ==> k.value >= 0.0
  {
    match FindMatch(name, 0)
    case None => Inf
    case Some(p) =>
      var rest := name[p + |Token|..];
      assert rest[0] == name[p + |Token|];
      var n := ScanNumeral(rest);
      ValueNonNegative(n);
      Num(Value(n))
  }

  lemma {:induction false} LeadingDigitsOfDigits(d: string, rest: string)
    requires AllDigits(d)
    requires rest == [] || !IsDigit(rest[0])
    ensures LeadingDigits(d + rest) == d
  {
    if d != [] {
      assert (d + rest)[1..] == d[1..] + rest;
      LeadingDigitsOfDigits(d[1..], rest);
    } else {
      assert d + rest == rest;
    }
  }

  /** Scanning a numeral's own text, followed by text that cannot extend it,
      gives the numeral back. */
  lemma ScanLexeme(n: Numeral, suffix: string)
    requires n.whole != [] && AllDigits(n.whole) && AllDigits(n.fraction)
    requires suffix == [] || !IsDigit(suffix[0])
    requires n.fraction == [] ==> !(|suffix| >= 2 && suffix[0] == '.' && IsDigit(suffix[1]))
    ensures ScanNumeral(Lexeme(n) + suffix) == n
  {
    if n.fraction == [] {
      ScanWhole(n.whole, suffix);
    } else {
      ScanWithFraction(n.whole, n.fraction, suffix);
    }
  }

  lemma ScanWhole(whole: string, suffix: string)
    requires whole != [] && AllDigits(whole)
    requires suffix == [] || !IsDigit(suffix[0])
    requires !(|suffix| >= 2 && suffix[0] == '.' && IsDigit(suffix[1]))
    ensures ScanNumeral(whole + suffix) == Numeral(whole, [])
  {
    var t := whole + suffix;
    LeadingDigitsOfDigits(whole, suffix);
    assert t[|whole|..] == suffix;
  }

  lemma ScanWithFraction(whole: string, fraction: string, suffix: string)
    requires whole != [] && AllDigits(whole)
    requires fraction != [] && AllDigits(fraction)
    requires suffix == [] || !IsDigit(suffix[0])
    ensures ScanNumeral(whole + "." + fraction + suffix) == Numeral(whole, fraction)
  {
    var tail := "." + fraction + suffix;
    var t := whole + "." + fraction + suffix;
    assert t == whole + tail;
    LeadingDigitsOfDigits(whole, tail);
    assert t[|whole|..] == tail;
    assert tail[1..] == fraction + suffix;
    LeadingDigitsOfDigits(fraction, suffix);
  }

  /** The key of any name is the value of its leftmost match: if the pattern
      first matches at `p`, and the text after the token is a numeral followed
      by text that cannot extend it, the key is that numeral's value. */
  lemma ExtractAt(name: string, p: nat, n: Numeral, suffix: string)
    requires MatchesAt(name, p)
    requires forall q :: 0 <= q < p ==> !MatchesAt(name, q)
    requires n.whole != [] && AllDigits(n.whole) && AllDigits(n.fraction)
    requires name[p + |Token|..] == Lexeme(n) + suffix
    requires suffix == [] || !IsDigit(suffix[0])
    requires n.fraction == [] ==> !(|suffix| >= 2 && suffix[0] == '.' && IsDigit(suffix[1]))
    ensures ExtractChapterNumber(name) == Num(Value(n))
  {
    assert FindMatch(name, 0) == Some(p);
    ScanLexeme(n, suffix);
  }

  /** A name that starts with `Chapter `, a numeral and then text that cannot
      extend the numeral has that numeral's value as key: `ExtractAt` at 0. */
  lemma ExtractNumeral(n: Numeral, suffix: string)
    requires n.whole != [] && AllDigits(n.whole) && AllDigits(n.fraction)
    requires suffix == [] || !IsDigit(suffix[0])
    requires n.fraction == [] ==> !(|suffix| >= 2 && suffix[0] == '.' && IsDigit(suffix[1]))
    ensures ExtractChapterNumber(Token + Lexeme(n) + suffix) == Num(Value(n))
  {
    var s := Token + Lexeme(n) + suffix;
    assert s[..|Token|] == Token;
    assert s[|Token|] == n.whole[0];
    assert MatchesAt(s, 0);
    assert s[|Token|..] == Lexeme(n) + suffix;
    ExtractAt(s, 0, n, suffix);
  }

  /** A match after a prefix counts: `Vol.1 Chapter 5: X` has key 5. */
  lemma PrefixedMatch(name: string)
    requires name == "Vol.1 Chapter 5: X"
    ensures ExtractChapterNumber(name) == Num(5.0)
  {
    var n := Numeral("5", []);
    assert name[6..14] == Token;
    assert MatchesAt(name, 6);
    forall q | 0 <= q < 6
      ensures !MatchesAt(name, q)
    {
      assert name[q] != 'C';
    }
    assert name[14..] == Lexeme(n) + ": X";
    ExtractAt(name, 6, n, ": X");
    ValueOfWhole(n);
  }

  /** `Chapter <n>` followed by text that cannot extend the number has key `n`. */
  lemma ExtractRenderedNumber(n: nat, suffix: string)
    requires suffix == [] || (!IsDigit(suffix[0]) && suffix[0] != '.')
    ensures ExtractChapterNumber(Token + NatToString(n) + suffix) == Num(n as real)
  {
    var num := Numeral(NatToString(n), []);
    assert Lexeme(num) == NatToString(n);
    ExtractNumeral(num, suffix);
    NatToStringRoundTrip(n);
    ValueOfWhole(num);
  }

  /** A trailing point without digits is not part of the number: `Chapter 1.` has key 1. */
  lemma TrailingPointIgnored()
    ensures ExtractChapterNumber("Chapter 1.") == Num(1.0)
  {
    ExtractNumeral(Numeral("1", []), ".");
    ValueOfWhole(Numeral("1", []));
    assert Token + Lexeme(Numeral("1", [])) + "." == "Chapter 1.";
  }

  lemma ValueOneAndAHalf()
    ensures Value(Numeral("1", "5")) == 1.5
  {
    var n := Numeral("1", "5");
    var w: real := DigitsValue(n.whole) as real;
    var f: real := DigitsValue(n.fraction) as real;
    var d: real := Pow10(|n.fraction|) as real;
    assert w == 1.0 && f == 5.0 && d == 10.0;
    assert f / d == 0.5;
  }

  /** One point and its digits are read: `Chapter 1.5` has key 1.5. */
  lemma DecimalRead()
    ensures ExtractChapterNumber("Chapter 1.5") == Num(1.5)
  {
    var n := Numeral("1", "5");
    ValueOneAndAHalf();
    assert Token + Lexeme(n) + "" == "Chapter 1.5";
    ExtractNumeral(n, "");
  }

  /** A second point is not read: `Chapter 1.5.3` has key 1.5. */
  lemma SecondPointIgnored()
    ensures ExtractChapterNumber("Chapter 1.5.3") == Num(1.5)
  {
    var n := Numeral("1", "5");
    ValueOneAndAHalf();
    assert Token + Lexeme(n) + ".3" == "Chapter 1.5.3";
    ExtractNumeral(n, ".3");
  }

  /** The token is case-sensitive and needs exactly one space before the digits. */
  lemma NoMatchIsInfinity()
    ensures ExtractChapterNumber("Special") == Inf
    ensures ExtractChapterNumber("chapter 1") == Inf
    ensures ExtractChapterNumber("Chapter  1") == Inf
    ensures ExtractChapterNumber("Chapter10") == Inf
  {
    var t := "Chapter  1";
    assert !MatchesAt(t, 0) by { assert t[8] == ' '; }
    assert forall p :: 1 <= p < |t| ==> !MatchesAt(t, p) by {
      forall p | 1 <= p < |t| ensures !MatchesAt(t, p) {
        if p + |Token| < |t| {
          assert p == 1;
          assert t[p] != Token[0];
        }
      }
    }
    var u := "chapter 1";
    assert forall p :: 0 <= p < |u| ==> !MatchesAt(u, p) by {
      forall p | 0 <= p < |u| ensures !MatchesAt(u, p) {
        if p + |Token| < |u| {
          assert p == 0;
          assert u[p] != Token[0];
        }
      }
    }
    var w := "Chapter10";
    assert forall p :: 0 <= p < |w| ==> !MatchesAt(w, p) by {
      forall p | 0 <= p < |w| ensures !MatchesAt(w, p) {
        if p + |Token| < |w| {
          assert p == 0;
          assert w[7] != Token[7];
        }
      }
    }
  }
}

=== FILE: pages.dfy ===
/** One chapter's download: every page image is fetched, checked, transcoded
    to JPEG and staged in the chapter's workspace folder under its page name,
    all at once and all-or-nothing; the staged files are then assembled, in
    page order, into a PDF named after the sanitised chapter name. */
module Pages {
  import opened Wrappers
  import opened Strings
  import opened Seqs
  import opened Sanitise

  newtype byte = x: int | 0 <= x < 256
  type Bytes = seq<byte>

  // ---------------------------------------------------------------------------
  // Page names

  /** `${i + 1}.jpg`: the file the page at (zero-based) index `i` is staged in. */
  function PageName(i: nat): (name: string)
    ensures |name| > 4 && name[|name| - 4..] == ".jpg"
    ensures AllDigits(name[..|name| - 4]) && DigitsValue(name[..|name| - 4]) == i + 1
    ensures name[0] != '0'
  {
    var digits := NatToString(i + 1);
    NatToStringRoundTrip(i + 1);
    assert (digits + ".jpg")[..|digits|] == digits;
    digits + ".jpg"
  }

  /** Distinct pages are staged in distinct files. */
  lemma PageNameInjective(i: nat, j: nat)
    ensures PageName(i) == PageName(j) <==> i == j
  {
  }

  lemma PageNameExamples()
    ensures PageName(0) == "1.jpg"
    ensures PageName(9) == "10.jpg"
  {
    assert NatToString(10) == NatToString(1) + ['0'];
  }

  /** `pages.map((_, i) => `${i + 1}.jpg`)`: the files the assembler looks for. */
  function ExpectedNames<U>(pages: seq<U>): (names: seq<string>)
    ensures |names| == |pages|
    ensures forall i :: 0 <= i < |pages| ==> names[i] == PageName(i)
  {
    seq(|pages|, i requires 0 <= i => PageName(i))
  }

  /** No two expected names coincide. */
  lemma ExpectedNamesDistinct<U>(pages: seq<U>)
    ensures forall i, j :: 0 <= i < j < |pages| ==> ExpectedNames(pages)[i] != ExpectedNames(pages)[j]
  {
    forall i, j | 0 <= i < j < |pages|
      ensures ExpectedNames(pages)[i] != ExpectedNames(pages)[j]
    {
      PageNameInjective(i, j);
    }
  }

  // ---------------------------------------------------------------------------
  // Fetching one page

  /** What the GET request for one page image came back with. `Received`
      means the request resolved, which by axios's default status check needs
      a 2xx status; a non-2xx status rejects the request and is a
      `TransportFailed`, whatever content type it carries. */
  datatype Response =
    | Received(contentType: Option<string>, body: Bytes)
    | TransportFailed(reason: string)

  /** A page URL together with the response the network gave for it. */
  datatype Page = Page(url: string, response: Response)

  /** Why one page could not be staged. A response without a content type
      fails too: reading `startsWith` of `undefined` throws. */
  datatype PageError =
    | TransportError(url: string, reason: string)
    | NoContentType(url: string)
    | InvalidContentType(url: string, contentType: string)
    | TranscodeError(url: string)

  /** A staged file: its name in the workspace and the bytes written there. */
  datatype Write = Write(name: string, data: Bytes)

  /** The JPEG re-encoder; `None` when the bytes are not a decodable image. */
  type Transcoder = Bytes -> Option<Bytes>

  /** `contentType.startsWith('image')`, case-sensitive. */
  predicate IsImage(contentType: string) {
    StartsWith(contentType, "image")
  }

  lemma IsImageExamples()
    ensures IsImage("image/png") && IsImage("image/jpeg") && IsImage("imagery")
    ensures !IsImage("text/html") && !IsImage("Image/png") && !IsImage("") && !IsImage("imag")
  {
    assert "image/png"[..5] == "image";
    assert "image/jpeg"[..5] == "image";
    assert "imagery"[..5] == "image";
    assert "text/html"[0] != "image"[0];
    assert "Image/png"[0] != "image"[0];
  }

  /** Downloads one page and stages it under `name`: only a response whose
      content type starts with `image` and whose body transcodes is written. */
  function DownloadImage(name: string, page: Page, jpeg: Transcoder): (r: Result<Write, PageError>)
    ensures r.Success? <==>
      && page.response.Received?
      && page.response.contentType.Some?
      && IsImage(page.response.contentType.value)
      && jpeg(page.response.body).Some?
    ensures r.Success? ==> r.value == Write(name, jpeg(page.response.body).value)
    ensures page.response.Received? && page.response.contentType.Some? && !IsImage(page.response.contentType.value) ==>
      r == Failure(InvalidContentType(page.url, page.response.contentType.value))
  {
    match page.response
    case TransportFailed(reason) => Failure(TransportError(page.url, reason))
    case Received(contentType, body) =>
      match contentType
      case None => Failure(NoContentType(page.url))
      case Some(ct) =>
        if !IsImage(ct) then Failure(InvalidContentType(page.url, ct))
        else
          match jpeg(body)
          case None => Failure(TranscodeError(page.url))
          case Some(image) => Success(Write(name, image))
  }

  /** The download of the page at index `i`, staged under its page name. */
  function PageDownload(pages: seq<Page>, jpeg: Transcoder, i: nat): Result<Write, PageError>
    requires i < |pages|
  {
    DownloadImage(PageName(i), pages[i], jpeg)
  }

  // ---------------------------------------------------------------------------
  // Fetching all pages

  /** The downloads of pages `from..`, combined all-or-nothing. */
  function DownloadFrom(pages: seq<Page>, jpeg: Transcoder, from: nat): (r: Result<seq<Write>, PageError>)
    requires from <= |pages|
    ensures r.Success? <==> forall i :: from <= i < |pages| ==> PageDownload(pages, jpeg, i).Success?
    ensures r.Success? ==>
      && |r.value| == |pages| - from
      && forall k :: 0 <= k < |r.value| ==> PageDownload(pages, jpeg, from + k) == Success(r.value[k])
    ensures r.Failure? ==> exists i :: from <= i < |pages| && PageDownload(pages, jpeg, i) == Failure(r.error)
    decreases |pages| - from
  {
    if from == |pages| then Success([])
    else
      match PageDownload(pages, jpeg, from)
      case Failure(e) => Failure(e)
      case Success(w) =>
        match DownloadFrom(pages, jpeg, from + 1)
        case Failure(e) => Failure(e)
        case Success(ws) => Success([w] + ws)
  }

  /** `Promise.all(urls.map((url, i) => downloadImage(`${i + 1}.jpg`, url)))`:
      the staging writes, one per page in page order, or the error of a page
      that failed. Which failure surfaces first depends on timing; the model
      reports the lowest-indexed one and promises only that it is one of them. */
  function DownloadAllImages(pages: seq<Page>, jpeg: Transcoder): (r: Result<seq<Write>, PageError>)
    ensures r.Success? <==> forall i :: 0 <= i < |pages| ==> PageDownload(pages, jpeg, i).Success?
    ensures r.Success? ==>
      && |r.value| == |pages|
      && forall i :: 0 <= i < |pages| ==> PageDownload(pages, jpeg, i) == Success(r.value[i])
    ensures r.Failure? ==> exists i :: 0 <= i < |pages| && PageDownload(pages, jpeg, i) == Failure(r.error)
  {
    DownloadFrom(pages, jpeg, 0)
  }

  /** A successful batch writes page `i` to `${i + 1}.jpg`. */
  lemma DownloadAllImagesNames(pages: seq<Page>, jpeg: Transcoder)
    requires DownloadAllImages(pages, jpeg).Success?
    ensures forall i :: 0 <= i < |pages| ==> DownloadAllImages(pages, jpeg).value[i].name == PageName(i)
  {
    var writes := DownloadAllImages(pages, jpeg).value;
    forall i | 0 <= i < |pages|
      ensures writes[i].name == PageName(i)
    {
      assert PageDownload(pages, jpeg, i) == Success(writes[i]);
    }
  }

  /** One bad content type anywhere sinks the whole batch. */
  lemma OneInvalidPageFailsAll(pages: seq<Page>, jpeg: Transcoder, k: nat, contentType: string)
    requires k < |pages|
    requires pages[k].response.Received? && pages[k].response.contentType == Some(contentType)
    requires !IsImage(contentType)
    ensures DownloadAllImages(pages, jpeg).Failure?
  {
    assert !PageDownload(pages, jpeg, k).Success?;
  }

  // ---------------------------------------------------------------------------
  // The workspace

  /** The chapter's folder: file name to contents. It may hold files from an
      earlier run, since an existing folder is reused. */
  type Workspace = map<string, Bytes>

  /** The folder after `writes` land in the given order; a later write to a
      name replaces an earlier one. */
  function Stage(ws: Workspace, writes: seq<Write>): (r: Workspace)
    ensures r.Keys == ws.Keys + set w | w in writes :: w.name
  {
    if writes == [] then ws
    else
      var last := writes[|writes| - 1];
      Stage(ws, writes[..|writes| - 1])[last.name := last.data]
  }

  /** No two writes put different bytes under one name. */
  predicate Consistent(writes: seq<Write>) {
    forall a, b :: a in writes && b in writes && a.name == b.name ==> a == b
  }

  /** Writes to pairwise distinct names are consistent. */
  lemma DistinctNamesConsistent(writes: seq<Write>)
    requires forall i, j :: 0 <= i < j < |writes| ==> writes[i].name != writes[j].name
    ensures Consistent(writes)
  {
    forall a, b | a in writes && b in writes && a.name == b.name
      ensures a == b
    {
      var i :| 0 <= i < |writes| && writes[i] == a;
      var j :| 0 <= j < |writes| && writes[j] == b;
      assert i == j;
    }
  }

  /** With consistent writes, every written name holds its write's bytes and
      every other name keeps what the folder held before. */
  lemma {:induction false} StageContents(ws: Workspace, writes: seq<Write>)
    requires Consistent(writes)
    ensures forall w :: w in writes ==> w.name in Stage(ws, writes) && Stage(ws, writes)[w.name] == w.data
    ensures forall n :: n in ws && (forall w :: w in writes ==> w.name != n) ==> Stage(ws, writes)[n] == ws[n]
  {
    if writes != [] {
      var init, last := writes[..|writes| - 1], writes[|writes| - 1];
      assert writes == init + [last];
      assert Consistent(init) by {
        forall a, b | a in init && b in init && a.name == b.name
          ensures a == b
        {
          assert a in writes && b in writes;
        }
      }
      StageContents(ws, init);
      forall w | w in writes
        ensures w.name in Stage(ws, writes) && Stage(ws, writes)[w.name] == w.data
      {
        if w.name == last.name {
          assert w == last;
        } else {
          assert w in init;
        }
      }
    }
  }

  /** A rearrangement holds the same writes. */
  lemma SameWrites(writes: seq<Write>, done: seq<Write>)
    requires multiset(done) == multiset(writes)
    ensures forall w :: w in done <==> w in writes
  {
    forall w
      ensures w in done <==> w in writes
    {
      assert w in done <==> w in multiset(done);
      assert w in writes <==> w in multiset(writes);
    }
  }

  /** Two sequences of the same consistent writes agree on every name. */
  lemma StageAgrees(ws: Workspace, writes: seq<Write>, done: seq<Write>, n: string)
    requires Consistent(writes) && Consistent(done)
    requires forall w :: w in done <==> w in writes
    requires n in Stage(ws, writes) && n in Stage(ws, done)
    ensures Stage(ws, done)[n] == Stage(ws, writes)[n]
  {
    StageContents(ws, writes);
    StageContents(ws, done);
    if w :| w in writes && w.name == n {
      assert w in done;
    }
  }

  /** The pages finish in whatever order the network allows: any order of a
      consistent set of writes leaves the folder in the same state. */
  lemma CompletionOrderIrrelevant(ws: Workspace, writes: seq<Write>, done: seq<Write>)
    requires Consistent(writes)
    requires multiset(done) == multiset(writes)
    ensures Stage(ws, done) == Stage(ws, writes)
  {
    SameWrites(writes, done);
    assert Consistent(done);
    var a, b := Stage(ws, done), Stage(ws, writes);
    assert a.Keys == b.Keys by {
      assert (set w | w in done :: w.name) == (set w | w in writes :: w.name);
    }
    forall n | n in a
      ensures a[n] == b[n]
    {
      StageAgrees(ws, writes, done, n);
    }
  }

  // ---------------------------------------------------------------------------
  // Assembling the PDF

  /** The output: its file name in the output root and its pages, one image each. */
  datatype Document = Document(fileName: string, pages: seq<Bytes>)

  /** The pages the assembler embeds: the contents of each listed file that
      exists, in list order. */
  function Embed(names: seq<string>, ws: Workspace): seq<Bytes>
  {
    if names == [] then []
    else
      var init, last := names[..|names| - 1], names[|names| - 1];
      Embed(init, ws) + (if last in ws then [ws[last]] else [])
  }

  /** The test `fs.existsSync(imgPath)` fails for this name. */
  function AbsentFrom(ws: Workspace): string -> bool {
    n => n !in ws
  }

  /** The listed files that do not exist, each warned about and skipped. */
  function Missing(names: seq<string>, ws: Workspace): (r: seq<string>)
    ensures forall n :: n in r <==> n in names && n !in ws
  {
    Filter(names, AbsentFrom(ws))
  }

  /** The document `convertToPdf(name, names)` saves. */
  function Assemble(name: string, names: seq<string>, ws: Workspace): Document {
    Document(name + ".pdf", Embed(names, ws))
  }

  /** Embedding works file by file. */
  lemma {:induction false} EmbedAppend(a: seq<string>, b: seq<string>, ws: Workspace)
    ensures Embed(a + b, ws) == Embed(a, ws) + Embed(b, ws)
    decreases |b|
  {
    if b == [] {
      assert a + b == a;
    } else {
      var init, last := b[..|b| - 1], b[|b| - 1];
      assert (a + b)[..|a + b| - 1] == a + init;
      assert (a + b)[|a + b| - 1] == last;
      EmbedAppend(a, init, ws);
    }
  }

  /** Every listed file is present: one page per name, in list order. */
  lemma {:induction false} EmbedAllPresent(names: seq<string>, ws: Workspace)
    requires forall i :: 0 <= i < |names| ==> names[i] in ws
    ensures |Embed(names, ws)| == |names|
    ensures forall i :: 0 <= i < |names| ==> Embed(names, ws)[i] == ws[names[i]]
  {
    if names != [] {
      var init := names[..|names| - 1];
      EmbedAllPresent(init, ws);
    }
  }

  /** Each page is either embedded or reported missing, never both, never neither. */
  lemma {:induction false} EmbedOrSkip(names: seq<string>, ws: Workspace)
    ensures |Embed(names, ws)| + |Missing(names, ws)| == |names|
  {
    if names != [] {
      var init, last := names[..|names| - 1], names[|names| - 1];
      assert names == init + [last];
      FilterAppend(init, [last], AbsentFrom(ws));
      EmbedOrSkip(init, ws);
    }
  }

  /** A missing file drops out of the document and leaves the other pages in place. */
  lemma MissingPageSkipped(a: seq<string>, n: string, b: seq<string>, ws: Workspace)
    requires n !in ws
    ensures Embed(a + [n] + b, ws) == Embed(a, ws) + Embed(b, ws)
  {
    EmbedAppend(a + [n], b, ws);
    EmbedAppend(a, [n], ws);
    assert [n][..0] == [];
  }

  /** Five expected pages with the fourth file absent give a four-page document. */
  lemma FourthOfFiveMissing(names: seq<string>, ws: Workspace)
    requires |names| == 5 && names[3] !in ws
    requires forall i :: 0 <= i < 5 && i != 3 ==> names[i] in ws
    ensures Embed(names, ws) == [ws[names[0]], ws[names[1]], ws[names[2]], ws[names[4]]]
  {
    var a, b := names[..3], names[4..];
    assert names == a + [names[3]] + b;
    MissingPageSkipped(a, names[3], b, ws);
    EmbedAllPresent(a, ws);
    EmbedAllPresent(b, ws);
  }

  /** One more name walked: its page is appended if the file exists, its name otherwise. */
  lemma WalkStep(names: seq<string>, i: nat, ws: Workspace)
    requires i < |names|
    ensures Embed(names[..i + 1], ws) == Embed(names[..i], ws) + (if names[i] in ws then [ws[names[i]]] else [])
    ensures Filter(names[..i + 1], AbsentFrom(ws)) == Filter(names[..i], AbsentFrom(ws)) + (if names[i] in ws then [] else [names[i]])
  {
    var seen := names[..i + 1];
    assert seen[..i] == names[..i] && seen[i] == names[i];
    assert seen == names[..i] + [names[i]];
    FilterAppend(names[..i], [names[i]], AbsentFrom(ws));
    assert [names[i]][1..] == [];
  }

  /** `convertToPdf`: walks the expected names in order, embedding each file
      that exists and warning about each one that does not. */
  method ConvertToPdf(name: string, names: seq<string>, ws: Workspace) returns (doc: Document, skipped: seq<string>)
    ensures doc == Assemble(name, names, ws)
    ensures skipped == Missing(names, ws)
    ensures |doc.pages| + |skipped| == |names|
  {
    var pages: seq<Bytes> := [];
    skipped := [];
    var i := 0;
    while i < |names|
      invariant 0 <= i <= |names|
      invariant pages == Embed(names[..i], ws)
      invariant skipped == Filter(names[..i], AbsentFrom(ws))
      invariant |pages| + |skipped| == i
    {
      var path := names[i];
      WalkStep(names, i, ws);
      if path in ws {
        pages := pages + [ws[path]];
      } else {
        skipped := skipped + [path];
      }
      i := i + 1;
    }
    assert names[..i] == names;
    doc := Document(name + ".pdf", pages);
  }

  // ---------------------------------------------------------------------------
  // One chapter, end to end

  /** `downloadManga`: sanitise the name, stage every page in the (possibly
      pre-existing) folder, then assemble the expected names into the PDF. */
  function DownloadManga(rawName: string, pages: seq<Page>, jpeg: Transcoder, ws: Workspace): (r: Result<Document, PageError>)
    ensures r.Success? <==> DownloadAllImages(pages, jpeg).Success?
  {
    var name := SanitiseName(rawName);
    match DownloadAllImages(pages, jpeg)
    case Failure(e) => Failure(e)
    case Success(writes) => Success(Assemble(name, ExpectedNames(pages), Stage(ws, writes)))
  }

  /** The writes of a successful batch go to pairwise distinct names. */
  lemma BatchConsistent(pages: seq<Page>, jpeg: Transcoder)
    requires DownloadAllImages(pages, jpeg).Success?
    ensures Consistent(DownloadAllImages(pages, jpeg).value)
  {
    var writes := DownloadAllImages(pages, jpeg).value;
    DownloadAllImagesNames(pages, jpeg);
    forall i, j | 0 <= i < j < |writes|
      ensures writes[i].name != writes[j].name
    {
      PageNameInjective(i, j);
    }
    DistinctNamesConsistent(writes);
  }

  /** After a successful batch the folder maps page `i`'s name to its image. */
  lemma StagedPage(pages: seq<Page>, jpeg: Transcoder, ws: Workspace, i: nat)
    requires DownloadAllImages(pages, jpeg).Success?
    requires i < |pages|
    ensures PageName(i) in Stage(ws, DownloadAllImages(pages, jpeg).value)
    ensures Stage(ws, DownloadAllImages(pages, jpeg).value)[PageName(i)] == PageDownload(pages, jpeg, i).value.data
  {
    var writes := DownloadAllImages(pages, jpeg).value;
    BatchConsistent(pages, jpeg);
    StageContents(ws, writes);
    assert PageDownload(pages, jpeg, i) == Success(writes[i]);
    assert writes[i] in writes;
  }

  /** A chapter is produced exactly when every page downloads. */
  lemma DownloadMangaSucceedsIff(rawName: string, pages: seq<Page>, jpeg: Transcoder, ws: Workspace)
    ensures DownloadManga(rawName, pages, jpeg, ws).Success? <==>
      forall i :: 0 <= i < |pages| ==> PageDownload(pages, jpeg, i).Success?
  {
  }

  /** A failed chapter reports the error of one of its pages. */
  lemma DownloadMangaFailure(rawName: string, pages: seq<Page>, jpeg: Transcoder, ws: Workspace)
    requires DownloadManga(rawName, pages, jpeg, ws).Failure?
    ensures exists i :: 0 <= i < |pages| && PageDownload(pages, jpeg, i) == Failure(DownloadManga(rawName, pages, jpeg, ws).error)
  {
    assert DownloadManga(rawName, pages, jpeg, ws).error == DownloadAllImages(pages, jpeg).error;
  }

  /** A produced chapter is named after the sanitised chapter name and holds
      every page, in page order, whatever the folder held before. */
  lemma DownloadMangaPages(rawName: string, pages: seq<Page>, jpeg: Transcoder, ws: Workspace)
    ensures DownloadManga(rawName, pages, jpeg, ws).Success? ==>
      var doc := DownloadManga(rawName, pages, jpeg, ws).value;
      && doc.fileName == SanitiseName(rawName) + ".pdf"
      && |doc.pages| == |pages|
      && forall i :: 0 <= i < |pages| ==> doc.pages[i] == PageDownload(pages, jpeg, i).value.data
  {
    if DownloadAllImages(pages, jpeg).Success? {
      var staged := Stage(ws, DownloadAllImages(pages, jpeg).value);
      var names := ExpectedNames(pages);
      forall i | 0 <= i < |pages|
        ensures names[i] in staged && staged[names[i]] == PageDownload(pages, jpeg, i).value.data
      {
        StagedPage(pages, jpeg, ws, i);
      }
      EmbedAllPresent(names, staged);
      assert DownloadManga(rawName, pages, jpeg, ws).value == Assemble(SanitiseName(rawName), names, staged);
    }
  }

  /** On success nothing is skipped: the assembler finds every expected file. */
  lemma NothingSkippedOnSuccess(pages: seq<Page>, jpeg: Transcoder, ws: Workspace)
    requires DownloadAllImages(pages, jpeg).Success?
    ensures Missing(ExpectedNames(pages), Stage(ws, DownloadAllImages(pages, jpeg).value)) == []
  {
    var staged := Stage(ws, DownloadAllImages(pages, jpeg).value);
    var names := ExpectedNames(pages);
    forall i | 0 <= i < |names|
      ensures !AbsentFrom(staged)(names[i])
    {
      StagedPage(pages, jpeg, ws, i);
    }
    FilterNone(names, AbsentFrom(staged));
  }

  /** Whatever order the pages finish in, the document is the same. */
  lemma AnyCompletionOrder(rawName: string, pages: seq<Page>, jpeg: Transcoder, ws: Workspace, done: seq<Write>)
    requires DownloadAllImages(pages, jpeg).Success?
    requires multiset(done) == multiset(DownloadAllImages(pages, jpeg).value)
    ensures Assemble(SanitiseName(rawName), ExpectedNames(pages), Stage(ws, done)) == DownloadManga(rawName, pages, jpeg, ws).value
  {
    BatchConsistent(pages, jpeg);
    CompletionOrderIrrelevant(ws, DownloadAllImages(pages, jpeg).value, done);
  }
}

=== FILE: sanitise.dfy ===
/** `name.replace(/[^a-z0-9\s]/gi, '')`: the chapter name as used for the
    workspace folder and the output file. */
module Sanitise {
  import opened Strings
  import opened Seqs

  /** A character the pattern does not match, so the replacement leaves it:
      an ASCII letter of either case, an ASCII digit, or `\s` whitespace. */
  predicate IsKept(c: char) {
    IsAsciiLetter(c) || IsDigit(c) || IsJsWhitespace(c)
  }

  /** Deletes every character the pattern matches. */
  function SanitiseName(name: string): (r: string)
    ensures forall i :: 0 <= i < |r| ==> IsKept(r[i])
    ensures |r| <= |name|
  {
    Filter(name, IsKept)
  }

  /** A character appears in the result exactly when the name holds it and
      the pattern does not match it. */
  lemma SanitiseMembers(name: string, c: char)
    ensures c in SanitiseName(name) <==> c in name && IsKept(c)
  {
  }

  /** Sanitising works character by character: the result is the in-order
      subsequence of kept characters. */
  lemma SanitiseAppend(a: string, b: string)
    ensures SanitiseName(a + b) == SanitiseName(a) + SanitiseName(b)
  {
    FilterAppend(a, b, IsKept);
  }

  /** A name changes under sanitising exactly when it holds a deleted character. */
  lemma SanitiseFixpoint(name: string)
    ensures SanitiseName(name) == name <==> forall i :: 0 <= i < |name| ==> IsKept(name[i])
  {
    FilterFixpoint(name, IsKept);
  }

  /** Sanitising a sanitised name changes nothing. */
  lemma SanitiseIdempotent(name: string)
    ensures SanitiseName(SanitiseName(name)) == SanitiseName(name)
  {
    FilterIdempotent(name, IsKept);
  }

  /** The result is shorter by exactly the number of deleted characters. */
  lemma SanitiseLength(name: string)
    ensures |SanitiseName(name)| == CountKept(name, IsKept)
  {
    FilterLength(name, IsKept);
  }

  /** Every name the catalogue keeps contains `Chapter`, which survives
      sanitising, so its folder and file name are never empty. */
  lemma SanitiseKeepsWord(name: string, word: string)
    requires Contains(name, word)
    requires forall i :: 0 <= i < |word| ==> IsKept(word[i])
    ensures Contains(SanitiseName(name), word)
    ensures |SanitiseName(name)| >= |word|
  {
    var i :| 0 <= i <= |name| - |word| && OccursAt(name, word, i);
    var a, b := name[..i], name[i + |word|..];
    assert name == a + word + b;
    SanitiseAppend(a + word, b);
    SanitiseAppend(a, word);
    SanitiseFixpoint(word);
    ContainsFramed(SanitiseName(a), word, SanitiseName(b));
  }

  /** A chapter the catalogue lists keeps its `Chapter` once sanitised. */
  lemma ChapterNamesNeverEmpty(name: string)
    requires Contains(name, "Chapter")
    ensures Contains(SanitiseName(name), "Chapter")
    ensures |SanitiseName(name)| >= 7
  {
    SanitiseKeepsWord(name, "Chapter");
  }

  /** Letters, digits and spaces only. */
  predicate Plain(s: string) {
    forall i :: 0 <= i < |s| ==> IsAsciiLetter(s[i]) || IsDigit(s[i]) || s[i] == ' '
  }

  /** A run of letters, digits and spaces is left as it is. */
  lemma PlainKept(s: string)
    requires Plain(s)
    ensures SanitiseName(s) == s
  {
    SanitiseFixpoint(s);
  }

  /** Deleting a character the pattern matches leaves the rest as it was. */
  lemma DeletedCharInvisible(a: string, c: char, b: string)
    requires !IsKept(c)
    ensures SanitiseName(a + [c] + b) == SanitiseName(a + b)
  {
    assert SanitiseName([c]) == [] by {
      assert [c][1..] == [];
    }
    assert SanitiseName(a + [c]) == SanitiseName(a) by {
      SanitiseAppend(a, [c]);
    }
    calc {
      SanitiseName(a + [c] + b);
      { SanitiseAppend(a + [c], b); }
      SanitiseName(a + [c]) + SanitiseName(b);
      SanitiseName(a) + SanitiseName(b);
      { SanitiseAppend(a, b); }
      SanitiseName(a + b);
    }
  }

  /** A name made of plain words around two deleted characters comes out as the words alone. */
  lemma DeletedAround(a: string, p: char, c: string, q: char)
    requires !IsKept(p) && !IsKept(q)
    requires Plain(a + c)
    ensures SanitiseName(a + [p] + c + [q]) == a + c
  {
    assert SanitiseName(a + [p] + c + [q]) == SanitiseName(a + [p] + c) by {
      assert a + [p] + c + [q] == (a + [p] + c) + [q] + [];
      DeletedCharInvisible(a + [p] + c, q, []);
      assert a + [p] + c + [] == a + [p] + c;
    }
    DeletedCharInvisible(a, p, c);
    PlainKept(a + c);
  }

  /** Punctuation goes, letters, digits and spaces stay. */
  lemma SanitiseExample(name: string)
    requires name == "Chapter 10: The Fall!"
    ensures SanitiseName(name) == "Chapter 10 The Fall"
  {
    var a, c := "Chapter 10", " The Fall";
    assert name == a + [':'] + c + ['!'];
    assert a + c == "Chapter 10 The Fall";
    assert Plain("Chapter 10 The Fall");
    DeletedAround(a, ':', c, '!');
  }

  /** Distinct chapter names can share a sanitised name, and so a workspace
      folder and an output file. */
  lemma SanitiseCollides(name1: string, name2: string)
    requires name1 == "Chapter 1: A" && name2 == "Chapter 1 A"
    ensures name1 != name2 && SanitiseName(name1) == SanitiseName(name2)
  {
    var a, c := "Chapter 1", " A";
    assert name1 == a + [':'] + c;
    assert name2 == a + c;
    DeletedCharInvisible(a, ':', c);
  }
}

=== FILE: seqs.dfy ===
/** Order-preserving filtering of sequences, the shape shared by the chapter
    filter, the name sanitiser and the assembler's skip-missing walk. */
module Seqs {

  /** The elements of `s` that satisfy `keep`, in their original order. */
  function Filter<T(!new)>(s: seq<T>, keep: T -> bool): (r: seq<T>)
    ensures |r| <= |s|
    ensures forall x :: x in r <==> x in s && keep(x)
    ensures forall i :: 0 <= i < |r| ==> keep(r[i])
  {
    if s == [] then []
    else (if keep(s[0]) then [s[0]] else []) + Filter(s[1..], keep)
  }

  /** Filtering distributes over concatenation: together with the one-element
      cases this pins the result down as the in-order subsequence of kept elements. */
  lemma {:induction false} FilterAppend<T(!new)>(a: seq<T>, b: seq<T>, keep: T -> bool)
    ensures Filter(a + b, keep) == Filter(a, keep) + Filter(b, keep)
  {
    if a == [] {
      assert a + b == b;
    } else {
      assert (a + b)[1..] == a[1..] + b;
      FilterAppend(a[1..], b, keep);
    }
  }

  /** Filtering a sequence whose elements are all kept changes nothing, and only such sequences. */
  lemma {:induction false} FilterFixpoint<T(!new)>(s: seq<T>, keep: T -> bool)
    ensures Filter(s, keep) == s <==> forall i :: 0 <= i < |s| ==> keep(s[i])
  {
    if s != [] {
      FilterFixpoint(s[1..], keep);
      if !keep(s[0]) {
        assert |Filter(s, keep)| < |s|;
      } else {
        assert forall i :: 1 <= i < |s| ==> s[i] == s[1..][i - 1];
      }
    }
  }

  /** Nothing is kept when no element qualifies. */
  lemma {:induction false} FilterNone<T(!new)>(s: seq<T>, keep: T -> bool)
    requires forall i :: 0 <= i < |s| ==> !keep(s[i])
    ensures Filter(s, keep) == []
  {
    if s != [] {
      assert forall i :: 0 <= i < |s[1..]| ==> s[1..][i] == s[i + 1];
      FilterNone(s[1..], keep);
    }
  }

  /** Filtering twice with the same predicate is the same as filtering once. */
  lemma FilterIdempotent<T(!new)>(s: seq<T>, keep: T -> bool)
    ensures Filter(Filter(s, keep), keep) == Filter(s, keep)
  {
    FilterFixpoint(Filter(s, keep), keep);
  }

  /** Count of kept elements, written independently of Filter. */
  function CountKept<T(!new)>(s: seq<T>, keep: T -> bool): nat
  {
    if s == [] then 0 else (if keep(s[|s| - 1]) then 1 else 0) + CountKept(s[..|s| - 1], keep)
  }

  /** The filter keeps exactly as many elements as satisfy the predicate. */
  lemma {:induction false} FilterLength<T(!new)>(s: seq<T>, keep: T -> bool)
    ensures |Filter(s, keep)| == CountKept(s, keep)
  {
    if s != [] {
      var init, last := s[..|s| - 1], s[|s| - 1];
      assert s == init + [last];
      FilterAppend(init, [last], keep);
      FilterLength(init, keep);
    }
  }
}

=== FILE: stable_sort.dfy ===
/** `Array.prototype.sort` with the comparator `(a, b) => key(a) - key(b)`.
    ECMA-262 requires the sort to be stable (since its 2019 edition), and for a
    consistent comparator that fixes the result completely; it is computed here
    by insertion sort. */
module StableSort {
  import opened ChapterKey

  /** Keys never decrease along `s`. */
  predicate Sorted<T>(s: seq<T>, key: T -> Key) {
    forall i, j :: 0 <= i < j < |s| ==> AtMost(key(s[i]), key(s[j]))
  }

  /** Puts `x` after every element of `t` the comparator does not rank above it. */
  function Insert<T>(x: T, t: seq<T>, key: T -> Key): seq<T>
  {
    if t == [] then [x]
    else if Compare(key(x), key(t[0])) < 0 then [x] + t
    else [t[0]] + Insert(x, t[1..], key)
  }

  /** The elements after inserting are `x` and the elements before. */
  lemma {:induction false} InsertMembers<T>(x: T, t: seq<T>, key: T -> Key)
    ensures forall e :: e in Insert(x, t, key) <==> e == x || e in t
  {
    if t != [] && Compare(key(x), key(t[0])) >= 0 {
      InsertMembers(x, t[1..], key);
      assert t == [t[0]] + t[1..];
    }
  }

  /** Inserting adds exactly `x`. */
  lemma {:induction false} InsertPermutes<T>(x: T, t: seq<T>, key: T -> Key)
    ensures multiset(Insert(x, t, key)) == multiset(t) + multiset{x}
  {
    if t != [] && Compare(key(x), key(t[0])) >= 0 {
      assert t == [t[0]] + t[1..];
      InsertPermutes(x, t[1..], key);
    }
  }

  /** Inserting into a sorted sequence keeps it sorted. */
  lemma {:induction false} InsertSorted<T>(x: T, t: seq<T>, key: T -> Key)
    requires Sorted(t, key)
    ensures Sorted(Insert(x, t, key), key)
  {
    var r := Insert(x, t, key);
    if t == [] {
    } else if Compare(key(x), key(t[0])) < 0 {
      forall j | 0 < j < |r| ensures AtMost(key(x), key(r[j])) {
        assert r[j] == t[j - 1];
        BeforeIsStrictTotalOrder(key(r[j]), key(x), key(t[0]));
      }
    } else {
      var rest := Insert(x, t[1..], key);
      InsertSorted(x, t[1..], key);
      assert forall y :: y in rest ==> y == x || y in t[1..] by {
        InsertPermutes(x, t[1..], key);
        assert forall y :: y in rest <==> y in multiset(rest);
      }
      forall j | 0 <= j < |rest| ensures AtMost(key(t[0]), key(rest[j])) {
        assert rest[j] in rest;
      }
    }
  }

  /** Inserts the elements one at a time, each after the earlier ones. */
  function SortByKey<T>(s: seq<T>, key: T -> Key): (r: seq<T>)
    ensures multiset(r) == multiset(s)
    ensures Sorted(r, key)
  {
    if s == [] then []
    else
      var init := s[..|s| - 1];
      assert s == init + [s[|s| - 1]];
      var sortedInit := SortByKey(init, key);
      InsertSorted(s[|s| - 1], sortedInit, key);
      InsertPermutes(s[|s| - 1], sortedInit, key);
      Insert(s[|s| - 1], sortedInit, key)
  }

  // ---------------------------------------------------------------------------
  // Stability: elements with equal keys keep their relative order.

  /** The elements of `s` whose key is `k`, in order. */
  function WithKey<T>(s: seq<T>, key: T -> Key, k: Key): seq<T>
  {
    if s == [] then []
    else (if key(s[0]) == k then [s[0]] else []) + WithKey(s[1..], key, k)
  }

  lemma {:induction false} WithKeyMember<T>(s: seq<T>, key: T -> Key, k: Key, y: T)
    requires y in WithKey(s, key, k)
    ensures y in s && key(y) == k
  {
    if s != [] && !(key(s[0]) == k && y == s[0]) {
      WithKeyMember(s[1..], key, k, y);
    }
  }

  lemma WithKeyCons<T>(y: T, s: seq<T>, key: T -> Key, k: Key)
    ensures WithKey([y] + s, key, k) == (if key(y) == k then [y] else []) + WithKey(s, key, k)
  {
    assert ([y] + s)[1..] == s;
  }

  lemma {:induction false} WithKeyAppend<T>(a: seq<T>, b: seq<T>, key: T -> Key, k: Key)
    ensures WithKey(a + b, key, k) == WithKey(a, key, k) + WithKey(b, key, k)
  {
    if a == [] {
      assert a + b == b;
    } else {
      var p := if key(a[0]) == k then [a[0]] else [];
      var wa, wb := WithKey(a[1..], key, k), WithKey(b, key, k);
      assert (a + b)[0] == a[0] && (a + b)[1..] == a[1..] + b;
      assert WithKey(a + b, key, k) == p + WithKey(a[1..] + b, key, k);
      WithKeyAppend(a[1..], b, key, k);
      assert p + (wa + wb) == (p + wa) + wb;
    }
  }

  /** No element of `s` has key `k`. */
  lemma {:induction false} WithKeyEmpty<T>(s: seq<T>, key: T -> Key, k: Key)
    requires forall i :: 0 <= i < |s| ==> key(s[i]) != k
    ensures WithKey(s, key, k) == []
  {
    if s != [] {
      WithKeyEmpty(s[1..], key, k);
    }
  }

  /** Every element of `s` has key `k`. */
  lemma {:induction false} WithKeyAll<T>(s: seq<T>, key: T -> Key, k: Key)
    requires forall i :: 0 <= i < |s| ==> key(s[i]) == k
    ensures WithKey(s, key, k) == s
  {
    if s != [] {
      WithKeyAll(s[1..], key, k);
    }
  }

  /** An element placed in front of a sorted sequence whose keys all exceed its own. */
  lemma InsertFrontStable<T>(x: T, t: seq<T>, key: T -> Key, k: Key)
    requires Sorted(t, key)
    requires t != [] && Before(key(x), key(t[0]))
    ensures WithKey([x] + t, key, k) == WithKey(t, key, k) + (if key(x) == k then [x] else [])
  {
    WithKeyCons(x, t, key, k);
    if key(x) == k {
      forall i | 0 <= i < |t| ensures key(t[i]) != k {
        if i > 0 {
          BeforeIsStrictTotalOrder(key(x), key(t[0]), key(t[i]));
        }
      }
      WithKeyEmpty(t, key, k);
    }
  }

  lemma {:induction false} InsertStable<T>(x: T, t: seq<T>, key: T -> Key, k: Key)
    requires Sorted(t, key)
    ensures WithKey(Insert(x, t, key), key, k)
            == WithKey(t, key, k) + (if key(x) == k then [x] else [])
  {
    if t == [] {
      WithKeyCons(x, [], key, k);
    } else if Compare(key(x), key(t[0])) < 0 {
      InsertFrontStable(x, t, key, k);
    } else {
      InsertStable(x, t[1..], key, k);
      InsertLaterStable(x, t, key, k);
    }
  }

  /** The step case: `x` goes after `t[0]`, into the rest. */
  lemma InsertLaterStable<T>(x: T, t: seq<T>, key: T -> Key, k: Key)
    requires t != [] && Compare(key(x), key(t[0])) >= 0
    requires WithKey(Insert(x, t[1..], key), key, k)
             == WithKey(t[1..], key, k) + (if key(x) == k then [x] else [])
    ensures WithKey(Insert(x, t, key), key, k)
            == WithKey(t, key, k) + (if key(x) == k then [x] else [])
  {
    var rest := Insert(x, t[1..], key);
    var p := if key(t[0]) == k then [t[0]] else [];
    var q: seq<T> := if key(x) == k then [x] else [];
    var w := WithKey(t[1..], key, k);
    assert Insert(x, t, key) == [t[0]] + rest;
    assert WithKey(t, key, k) == p + w;
    WithKeyCons(t[0], rest, key, k);
    assert p + (w + q) == (p + w) + q;
  }

  lemma SortSnocStable<T>(init: seq<T>, last: T, key: T -> Key, k: Key)
    ensures WithKey(SortByKey(init + [last], key), key, k)
            == WithKey(SortByKey(init, key), key, k) + (if key(last) == k then [last] else [])
  {
    var s := init + [last];
    assert s[..|s| - 1] == init && s[|s| - 1] == last;
    InsertStable(last, SortByKey(init, key), key, k);
  }

  /** The sort keeps, for every key, the elements with that key in their input order. */
  lemma {:induction false} SortStable<T>(s: seq<T>, key: T -> Key, k: Key)
    ensures WithKey(SortByKey(s, key), key, k) == WithKey(s, key, k)
  {
    if s != [] {
      var init, last := s[..|s| - 1], s[|s| - 1];
      var tail: seq<T> := if key(last) == k then [last] else [];
      assert s == init + [last];
      SortStable(init, key, k);
      SortSnocStable(init, last, key, k);
      assert WithKey(s, key, k) == WithKey(init, key, k) + tail by {
        assert s == init + [last];
        WithKeyAppend(init, [last], key, k);
        WithKeyCons(last, [], key, k);
      }
    }
  }

  /** A sorted sequence is fixed by which elements carry each key and in what
      order: two sorted sequences that agree key by key are equal. */
  lemma {:induction false} SortedAgreeingAreEqual<T>(t1: seq<T>, t2: seq<T>, key: T -> Key)
    requires Sorted(t1, key) && Sorted(t2, key)
    requires forall k :: WithKey(t1, key, k) == WithKey(t2, key, k)
    ensures t1 == t2
    decreases |t1|
  {
    if t1 == [] || t2 == [] {
      if t1 != [] {
        assert t1 == [t1[0]] + t1[1..];
        WithKeyCons(t1[0], t1[1..], key, key(t1[0]));
        assert false;
      }
      if t2 != [] {
        assert t2 == [t2[0]] + t2[1..];
        WithKeyCons(t2[0], t2[1..], key, key(t2[0]));
        assert false;
      }
    } else {
      var k1, k2 := key(t1[0]), key(t2[0]);
      assert t1 == [t1[0]] + t1[1..];
      assert t2 == [t2[0]] + t2[1..];
      WithKeyCons(t1[0], t1[1..], key, k1);
      WithKeyCons(t2[0], t2[1..], key, k2);
      assert AtMost(k2, k1) by {
        var w := WithKey(t2, key, k1);
        assert t1[0] in w;
        WithKeyMember(t2, key, k1, t1[0]);
        var j :| 0 <= j < |t2| && t2[j] == t1[0];
        assert j == 0 || AtMost(key(t2[0]), key(t2[j]));
      }
      assert AtMost(k1, k2) by {
        var w := WithKey(t1, key, k2);
        assert t2[0] in w;
        WithKeyMember(t1, key, k2, t2[0]);
        var j :| 0 <= j < |t1| && t1[j] == t2[0];
        assert j == 0 || AtMost(key(t1[0]), key(t1[j]));
      }
      BeforeIsStrictTotalOrder(k1, k2, k1);
      assert k1 == k2;
      assert WithKey(t1, key, k1)[0] == t1[0];
      assert WithKey(t2, key, k1)[0] == t2[0];
      forall k ensures WithKey(t1[1..], key, k) == WithKey(t2[1..], key, k) {
        var p := if key(t1[0]) == k then [t1[0]] else [];
        var w1, w2 := WithKey(t1[1..], key, k), WithKey(t2[1..], key, k);
        WithKeyCons(t1[0], t1[1..], key, k);
        WithKeyCons(t2[0], t2[1..], key, k);
        assert p + w1 == p + w2;
        assert (p + w1)[|p|..] == w1 && (p + w2)[|p|..] == w2;
      }
      SortedAgreeingAreEqual(t1[1..], t2[1..], key);
    }
  }

  /** Any sorted arrangement that keeps equal-key elements in input order, which
      is what a stable sort must return, is exactly `SortByKey`. */
  lemma StableSortIsUnique<T>(s: seq<T>, t: seq<T>, key: T -> Key)
    requires Sorted(t, key)
    requires forall k :: WithKey(t, key, k) == WithKey(s, key, k)
    ensures t == SortByKey(s, key)
  {
    forall k ensures WithKey(t, key, k) == WithKey(SortByKey(s, key), key, k) {
      SortStable(s, key, k);
    }
    SortedAgreeingAreEqual(t, SortByKey(s, key), key);
  }

  // ---------------------------------------------------------------------------
  // Entries without a number come last, in input order.

  /** The elements of `s` that carry a chapter number, in order. */
  function Numbered<T>(s: seq<T>, key: T -> Key): seq<T>
  {
    if s == [] then []
    else (if key(s[0]).Num? then [s[0]] else []) + Numbered(s[1..], key)
  }

  /** A sorted sequence is its numbered elements followed by its Infinity-keyed ones. */
  lemma {:induction false} SortedSplits<T>(t: seq<T>, key: T -> Key)
    requires Sorted(t, key)
    ensures t == Numbered(t, key) + WithKey(t, key, Inf)
  {
    if t != [] && key(t[0]).Num? {
      assert t == [t[0]] + t[1..];
      WithKeyCons(t[0], t[1..], key, Inf);
      SortedSplits(t[1..], key);
    } else if t != [] {
      assert forall i :: 0 <= i < |t| ==> key(t[i]) == Inf by {
        forall i | 0 <= i < |t| ensures key(t[i]) == Inf {
          assert i == 0 || AtMost(key(t[0]), key(t[i]));
        }
      }
      WithKeyAll(t, key, Inf);
      NumberedEmpty(t, key);
    }
  }

  lemma {:induction false} NumberedEmpty<T>(s: seq<T>, key: T -> Key)
    requires forall i :: 0 <= i < |s| ==> key(s[i]) == Inf
    ensures Numbered(s, key) == []
  {
    if s != [] {
      NumberedEmpty(s[1..], key);
    }
  }

  /** Sorting puts every Infinity-keyed element after the numbered ones, in input order. */
  lemma UnnumberedLast<T>(s: seq<T>, key: T -> Key)
    ensures SortByKey(s, key) == Numbered(SortByKey(s, key), key) + WithKey(s, key, Inf)
  {
    SortedSplits(SortByKey(s, key), key);
    SortStable(s, key, Inf);
  }
}

=== FILE: strings.dfy ===
/** Character classes, substring tests and decimal numerals as JavaScript sees
    them. Strings are sequences of Unicode scalar values. */
module Strings {

  /** `\d` without the `u` flag: the ten ASCII digits only. */
  predicate IsDigit(c: char) {
    '0' <= c <= '9'
  }

  /** ASCII letters; under the `i` flag `a-z` also matches `A-Z` and nothing outside ASCII. */
  predicate IsAsciiLetter(c: char) {
    'a' <= c <= 'z' || 'A' <= c <= 'Z'
  }

  /** `\s`: the WhiteSpace and LineTerminator code points of ECMA-262. */
  predicate IsJsWhitespace(c: char) {
    || c == '\t' || c == '\n' || c == '\U{000B}' || c == '\U{000C}' || c == '\r'
    || c == ' ' || c == '\U{00A0}' || c == '\U{1680}'
    || ('\U{2000}' <= c <= '\U{200A}')
    || c == '\U{2028}' || c == '\U{2029}' || c == '\U{202F}' || c == '\U{205F}'
    || c == '\U{3000}' || c == '\U{FEFF}'
  }

  /** `s.startsWith(prefix)`. */
  predicate StartsWith(s: string, prefix: string) {
    |prefix| <= |s| && s[..|prefix|] == prefix
  }

  /** `t` occurs in `s` starting at index `i`. */
  predicate OccursAt(s: string, t: string, i: int) {
    0 <= i && i + |t| <= |s| && s[i..i + |t|] == t
  }

  /** `s.includes(t)`: `t` occurs somewhere in `s`. */
  predicate Contains(s: string, t: string) {
    exists i | 0 <= i <= |s| - |t| :: OccursAt(s, t, i)
  }

  /** The left-to-right scan `String.prototype.includes` performs. */
  method Includes(s: string, t: string) returns (found: bool)
    ensures found <==> Contains(s, t)
  {
    if |t| > |s| {
      return false;
    }
    var i := 0;
    while i <= |s| - |t|
      invariant 0 <= i <= |s| - |t| + 1
      invariant forall j :: 0 <= j < i ==> !OccursAt(s, t, j)
    {
      if s[i..i + |t|] == t {
        assert OccursAt(s, t, i);
        return true;
      }
      i := i + 1;
    }
    return false;
  }

  /** A substring survives being framed by more text. */
  lemma ContainsFramed(a: string, t: string, b: string)
    ensures Contains(a + t + b, t)
  {
    assert OccursAt(a + t + b, t, |a|) by {
      assert (a + t + b)[|a|..|a| + |t|] == t;
    }
  }

  predicate AllDigits(s: string) {
    forall i :: 0 <= i < |s| ==> IsDigit(s[i])
  }

  function DigitValue(c: char): nat
    requires IsDigit(c)
  {
    (c as int) - ('0' as int)
  }

  function DigitChar(d: nat): (c: char)
    requires d < 10
    ensures IsDigit(c) && DigitValue(c) == d
  {
    (('0' as int) + d) as char
  }

  /** The value of a decimal digit string, most significant digit first. */
  function DigitsValue(s: string): nat
    requires AllDigits(s)
  {
    if s == [] then 0 else DigitsValue(s[..|s| - 1]) * 10 + DigitValue(s[|s| - 1])
  }

  function Pow10(n: nat): (p: nat)
    ensures p >= 1
  {
    if n == 0 then 1 else 10 * Pow10(n - 1)
  }

  /** The decimal rendering of a non-negative integer, as a template literal prints it. */
  function NatToString(n: nat): (s: string)
    ensures |s| > 0 && AllDigits(s)
    ensures s[0] == '0' ==> n == 0
    decreases n
  {
    if n < 10 then [DigitChar(n)] else NatToString(n / 10) + [DigitChar(n % 10)]
  }

  /** Reading back a rendered integer gives the integer. */
  lemma {:induction false} NatToStringRoundTrip(n: nat)
    ensures DigitsValue(NatToString(n)) == n
    decreases n
  {
    if n >= 10 {
      var s := NatToString(n);
      assert s[..|s| - 1] == NatToString(n / 10);
      NatToStringRoundTrip(n / 10);
    }
  }

  /** Distinct integers render to distinct strings. */
  lemma NatToStringInjective(m: nat, n: nat)
    ensures NatToString(m) == NatToString(n) <==> m == n
  {
    NatToStringRoundTrip(m);
    NatToStringRoundTrip(n);
  }
}

=== FILE: wrappers.dfy ===
/** Failure-carrying datatypes used across the model. */
module Wrappers {

  /** A value that may be absent (a missing header, a missing key). */
  datatype Option<+T> = None | Some(value: T)

  /** The outcome of an operation that either produces a value or fails. */
  datatype Result<+R, +E> = Success(value: R) | Failure(error: E)
}
